=== FILE: README.md ===
# calculus: lexer, parser and expression tree in Dafny

A model of the core of the `calculus` calculator:

- the **character lexer**:
  - the two sub-scanners `parse_operator` and `parse_number`;
  - the `Tokenizer` loop that tries a number first, then an operator, and stops on the first character neither accepts;
  - the older panicking copy of the same lexer in `src/tokenizer.rs`;
- the **token-cursor helpers** `peek`, `match_token` and `match_concrete_token`, and the **recursive-descent parser** `program` / `expression` / `term` / `unary` / `literal`;
- the **expression tree**, its fully parenthesised `Display` and its `eval`.

Everything is functional. A cursor is the remaining input (`seq<char>` or `seq<Token>`). A scanner or parser returns its outcome together with the cursor it leaves behind. A tokenizer or parser panic becomes an error value that carries the panic's message. Evaluation differs: a division by zero becomes the message-less error `DivisionByZero`, the `unreachable!()` arms become the precondition `WellFormed`, and `i32` overflow is not modelled (see Left out).

| module | file | models |
|---|---|---|
| `Wrappers` | wrappers.dfy | `Option`, `Result`, `peek` on a cursor, and cursor suffixes |
| `Tokens` | tokens.dfy | the lexer's `Operator` and `Token`, and their `Display` |
| `Lexer` | lexer.dfy | `parse_operator`, `parse_number`; number lexemes and their exact decimal value |
| `Scanner` | scanner.dfy | `TokenizerError`, `Tokenizer::new`, `is_end`, `scan_token`, `tokenize` |
| `LexerProperties` | lexer_properties.dfy | maximal munch, the lexeme round trip, and exactly which inputs tokenize |
| `LexerExamples` | lexer_examples.dfy | the repository's own test inputs, worked through the model |
| `LegacyTokenizer` | legacy_tokenizer.dfy | `src/tokenizer.rs`, whose `scan_token` panics, and its agreement with the newer tokenizer |
| `Syntax` | syntax.dfy | the parser's token type (`Integer(i32)` / `Operator(String)`), `match_token`, `match_concrete_token` |
| `Expressions` | expressions.dfy | `Expression`, `Display`, and `eval` with truncating division |
| `Parser` | parser.dfy | `program`, `expression`, `term`, `unary`, `literal` as written |
| `ParserProperties` | parser_properties.dfy | what the parser accepts, its round trip, and unambiguity |
| `PrecedenceParser` | precedence_parser.dfy | the left-associative precedence grammar that the source's doc comments state |
| `ParserExamples` | parser_examples.dfy | concrete parses and evaluations that show the difference |

Two token types. The lexer produces `Number(f64) | Operator(Operator)`. The AST files match on a different type, `Integer(i32) | Operator(String)`, which is not among the files modelled. Nothing in the code feeds one into the other. So the lexer is modelled over `Tokens.Token` and the AST layer over `Syntax.Token`. The two layers are not connected.

Token equality is Dafny's structural datatype equality over the two variants, as the derived `PartialEq` gives.

The number payload is the exact decimal value of the accepted lexeme, as a `real`. `str::parse::<f64>` only approximates it.

Behaviour of the code worth knowing before reading the model:

- **"1.2.3".** Tokenizing "1.2.3" fails with "unexpected token". The number scanner rejects at the second '.', that error falls through to the operator scanner, and the operator scanner rejects the '.'.
- **Unary rendering.** A unary node renders with a space after its operator: "(- 3)".
- **Parser errors.** The parser's failures are its panics, with their messages: "end of input", "unexpected token from unary", "unexpected token". An error raised while parsing a later operand passes up unchanged.
- **Grouping.** The parser groups chains to the right, and `*` takes a whole expression as its right operand. The grammar in the parser's doc comments groups to the left. See Findings.
- **Evaluation.** `eval` works on `i32` integers. Division truncates toward zero, and a zero divisor panics.

## Model

| member | source | states |
|---|---|---|
| `Tokens.Symbol` | src/tokenizer/tokens.rs:15-20 | each operator is written with one of the four operator symbols |
| `Tokens.OperatorText` | src/tokenizer/tokens.rs:11-24 | every operator displays as exactly one character, and that character is an operator symbol |
| `Tokens.OperatorTextInjective` | src/tokenizer/tokens.rs:15-20 | distinct operators display differently |
| `Tokens.OperatorSymbolsCovered` | src/tokenizer/tokens.rs:15-20 | each of `+ - * /` is the display of some operator |
| `Tokens.OperatorOf` | src/tokenizer/helpers.rs:14-17 | maps an operator character to the operator that displays as it |
| `Tokens.TokenText` | src/tokenizer/tokens.rs:32-39 | an operator token displays as one operator symbol, which reads back to the token's operator; a number displays by the float formatting, taken as a parameter |
| `Tokens.OperatorTokenText` | src/tokenizer/tokens.rs:32-39 | an operator token displays exactly as its operator |
| `Wrappers.Peek` | src/tokenizer/helpers.rs:6-8 | the first remaining element if there is one, else nothing; nothing is consumed (the same for the token `peek` of src/ast/helpers.rs:8-10) |
| `Lexer.ParseOperator` | src/tokenizer/helpers.rs:10-28 | accepts exactly an operator symbol or a blank, consuming one character; pushes a token only for a symbol; otherwise fails with "cannot parse operator" and consumes nothing; never panics |
| `Lexer.ParseOperatorRoundTrip` | src/tokenizer/helpers.rs:13-25 | scanning an operator's display gives back that operator and consumes just it |
| `Lexer.NumberLoop` | src/tokenizer/helpers.rs:34-61 | the scanning loop (`LoopResult`): with nothing collected it fails on a non-digit and panics on empty input; otherwise it consumes up to the reach of a lexeme, and fails at a second '.' having consumed what came before it |
| `Lexer.ParseNumber` | src/tokenizer/helpers.rs:30-67 | panics exactly on empty input; accepts exactly when the longest `digit+ ('.' digit*)?` prefix is non-empty and not followed by '.'; the value is that prefix's decimal value and the cursor moves past it; a rejection carries "cannot parse number" and leaves the cursor after the prefix |
| `LexerProperties.LexemeLengthSound` | src/tokenizer/helpers.rs:41-60 | what the number scanner consumes is a well-formed lexeme |
| `LexerProperties.LexemeLengthMaximal` | src/tokenizer/helpers.rs:41-61 | no longer prefix is a lexeme (maximal munch) |
| `LexerProperties.LexemeLengthOfLexeme` | src/tokenizer/helpers.rs:54-56 | a lexeme followed by a character that is neither a digit nor '.' is consumed exactly |
| `LexerProperties.ParseNumberOfLexeme` | src/tokenizer/helpers.rs:30-67 | round trip: scanning a lexeme, then a boundary, yields the lexeme's value and leaves the rest |
| `LexerProperties.ParseNumberRejectsSecondDot` | src/tokenizer/helpers.rs:41-45 | a lexeme containing '.' and followed by another '.' is rejected after it has been consumed |
| `LexerProperties.ParseNumberStopsAtBoundary` | src/tokenizer/helpers.rs:54-60 | an accepted number consumes at least one character, and stops at the end or before a character that is neither a digit nor '.' |
| `LexerExamples.FractionalLexemeValue` | src/tokenizer/parser.rs:127-133 | "4.33" has the value 4.33 |
| `LexerExamples.DigitLexemeValues` | src/tokenizer/parser.rs:127-133 | "3" and "5" have the values 3 and 5 |
| `LexerExamples.TrailingDotLexemeValue` | src/tokenizer/helpers.rs:41-49 | "3." is a lexeme with the value 3, and the number scanner accepts it whole, leaving nothing |
| `LexerExamples.ParseNumberStopsAtSecondDot` | src/tokenizer/helpers.rs:164-178 | "3.20.49.9" is rejected with "cannot parse number", leaving ".49.9" |
| `Scanner.ErrorText` | src/tokenizer/parser.rs:19-23 | an error displays as a fixed-length category prefix followed by exactly its message |
| `Scanner.ErrorTextInjective` | src/tokenizer/parser.rs:19-23 | a tokenizer error's display determines its message |
| `Scanner.New` | src/tokenizer/parser.rs:34-39 | a new tokenizer has pushed no tokens and still has the whole source to read; it starts at the end exactly when the source is empty |
| `Scanner.IsEnd` | src/tokenizer/parser.rs:41-43 | the tokenizer is at the end exactly when no next character can be peeked |
| `Scanner.ScanToken` | src/tokenizer/parser.rs:45-62 | panics only on an empty cursor; never moves the cursor backwards; a success consumes at least one character and pushes at most one token; a failure is "unexpected token", pushes nothing, and leaves the cursor just after the longest number prefix, where both the number scanner and the operator scanner reject |
| `Scanner.ScanTokenEffect` | src/tokenizer/parser.rs:46-57 | a step succeeds exactly on a complete number, an operator symbol or a blank; it pushes the number's value, the operator, or nothing |
| `Scanner.Tokenize` | src/tokenizer/parser.rs:64-72 | never panics; on success the cursor is empty; on failure it reports "unexpected token", and the cursor is non-empty and both the number scanner and the operator scanner reject at it; earlier tokens stay pushed |
| `LexerProperties.ScanPiece` | src/tokenizer/parser.rs:45-62 | one step over a number, an operator or a blank consumes exactly that piece and pushes its token |
| `LexerProperties.TokenizeUnlex` | src/tokenizer/parser.rs:64-72 | tokenizing the concatenation of valid pieces succeeds and yields their tokens in order |
| `LexerProperties.TokenizeSound` | src/tokenizer/parser.rs:64-72 | conversely, a successful run's input splits into valid pieces whose tokens are exactly the ones pushed |
| `LexerProperties.TokenizeSucceedsIffLexable` | src/tokenizer/parser.rs:64-72 | tokenizing succeeds exactly when the input splits into valid pieces, and otherwise fails with "unexpected token" |
| `LexerExamples.TokenizeArithmetic` | src/tokenizer/parser.rs:120-149 | "3 + 4.33 / 5" tokenizes to [3, +, 4.33, /, 5], consuming everything |
| `LexerExamples.TokenizeRejectsWords` | src/tokenizer/parser.rs:152-162 | "invalid source" fails with "unexpected token" and consumes nothing |
| `LexerExamples.TokenizeRejectsSecondDot` | src/tokenizer/parser.rs:48-61 | "1.2.3" fails with "unexpected token", with ".3" left and no token pushed |
| `LexerExamples.TokenizeEmpty` | src/tokenizer/parser.rs:64-72 | the empty input tokenizes to nothing |
| `LegacyTokenizer.ScanToken` | src/tokenizer.rs:122-139 | returns exactly where the newer step succeeds, with the same state; otherwise panics with "unexpected token" when input remains |
| `LegacyTokenizer.Tokenize` | src/tokenizer.rs:141-145 | returning normally means every character was consumed; any panic is "unexpected token" |
| `LegacyTokenizer.TokenizeAgrees` | src/tokenizer.rs:104-146 | the old tokenizer returns exactly when the new one succeeds, with the same final state; it panics exactly where the new one returns that error |
| `Syntax.AnyKind` | src/ast/helpers.rs:22-26 | the loop over discriminants finds a match exactly when the token's variant is listed |
| `Syntax.AnyEqual` | src/ast/helpers.rs:42-46 | the loop over tokens finds a match exactly when the token is listed |
| `Syntax.MatchToken` | src/ast/helpers.rs:15-30 | consumes and returns the head token exactly when its variant is listed, else returns nothing and leaves the cursor |
| `Syntax.MatchConcreteToken` | src/ast/helpers.rs:35-50 | consumes and returns the head token exactly when it equals a listed token, else returns nothing and leaves the cursor |
| `Syntax.ConcreteMatchImpliesKindMatch` | src/ast/helpers.rs:35-50 | a full-equality match is also a variant match on the candidates' variants, with the same outcome |
| `Syntax.TokenText` | src/ast/expressions.rs:31 | an integer token displays with a leading '-' exactly when it is negative, and the digits after the sign read back to its magnitude; an operator token displays as its string (the parser's token display is assumed, see Left out) |
| `Syntax.NatTextRoundTrip` | src/ast/expressions.rs:31 | reading back a literal's decimal digits gives the number |
| `Syntax.IntTextInjective` | src/ast/expressions.rs:31 | distinct integer literals display differently |
| `Expressions.TokenTextParenFree` | src/ast/expressions.rs:31 | a literal, or an operator without parentheses, displays with no parenthesis |
| `Expressions.Render` | src/ast/expressions.rs:15-34 | a binary or unary node renders starting with '(' and ending with ')' |
| `Expressions.RenderBalanced` | src/ast/expressions.rs:15-34 | a rendering of a tree whose operators hold no parenthesis has as many '(' as ')', one of each per binary or unary node |
| `Expressions.RenderOccurrences` | src/ast/expressions.rs:15-34 | each binary or unary node contributes exactly one '(' and one ')' to the rendering, literals none |
| `Expressions.RenderNegatedLiteral` | src/ast/expressions.rs:25-30 | the negation of 3 renders as "(- 3)", with a space |
| `Expressions.TruncDiv` | src/ast/expressions.rs:44 | the quotient leaves a remainder smaller than the divisor whose sign is the dividend's (rounding toward zero) |
| `Expressions.TruncDivUnique` | src/ast/expressions.rs:44 | that property determines the quotient |
| `Expressions.TruncDivVersusEuclidean` | src/ast/expressions.rs:44 | on non-negative operands it agrees with Euclidean division; on -7 / 2 it gives -3 where Euclidean gives -4 |
| `Expressions.Eval` | src/ast/expressions.rs:36-62 | on a well-formed tree, evaluation fails only if the tree has a division |
| `Expressions.WellFormedParenFree` | src/ast/expressions.rs:36-62 | the operators of a tree that evaluation accepts hold no parenthesis, so its rendering is balanced |
| `Expressions.EvalFailsIffDividesByZero` | src/ast/expressions.rs:36-62 | evaluation fails exactly when some division's right operand evaluates to zero |
| `Expressions.EvalNegatedLiteral` | src/ast/expressions.rs:49-55 | negation multiplies by -1 |
| `Parser.ParseLiteral` | src/ast/parser.rs:106-114 | consumes exactly one integer token into a literal, and otherwise fails with "unexpected token" |
| `Parser.ParseUnary` | src/ast/parser.rs:84-101 | fails with "end of input" on no tokens, with "unexpected token from unary" on an operator other than '-', and with "unexpected token" on '-' not followed by an integer; succeeds exactly on an integer, or '-' then an integer, giving an operand that flattens back to the consumed tokens |
| `Parser.ParseTerm` | src/ast/parser.rs:62-79 | the result is a right-grouped chain that flattens back to the consumed tokens; a binary result has a `*` or `/` root and stops where no operator follows; a failing first operand is the failure (a failing later operand: `TermLaterOperandFails`) |
| `Parser.ParseExpression` | src/ast/parser.rs:39-57 | the result is a right-grouped chain that flattens back to the consumed tokens and stops where no arithmetic operator follows; a failing first operand is the failure (a failing later operand: `ExpressionLaterOperandFails`) |
| `Parser.ParseProgram` | src/ast/parser.rs:32-34 | the same contract as an expression |
| `ParserProperties.ChainWellFormed` | src/ast/expressions.rs:36-62 | every tree the parser builds avoids the unreachable arms of evaluation |
| `ParserProperties.ParseProgramWellFormed` | src/ast/parser.rs:32-34 | every parse result can be evaluated |
| `ParserProperties.ParseRenderBalanced` | src/ast/expressions.rs:15-34 | the rendering of every parse result has one '(' and one ')' per binary or unary node |
| `ParserProperties.ParseUnaryOperand` | src/ast/parser.rs:84-101 | an operand's tokens parse back to that operand |
| `ParserProperties.ParseTermOperand` | src/ast/parser.rs:62-79 | an operand not followed by `*` or `/` is a whole term |
| `ParserProperties.RoundTripMultiplicative` | src/ast/parser.rs:62-79 | `operand * chain` re-parses to itself |
| `ParserProperties.RoundTripAdditive` | src/ast/parser.rs:39-57 | `operand + chain` re-parses to itself |
| `ParserProperties.ParseRoundTrip` | src/ast/parser.rs:39-79 | every right-grouped chain, followed by tokens that cannot continue it, parses back to itself |
| `ParserProperties.TermLaterOperandFails` | src/ast/parser.rs:62-79 | after an operand and `*` or `/`, a failure of the right-hand expression is the term's failure, unchanged |
| `ParserProperties.ExpressionLaterOperandFails` | src/ast/parser.rs:39-57 | after an operand and any arithmetic operator, a failure of the rest is the whole expression's failure, unchanged |
| `ParserProperties.ParseFailureLocated` | src/ast/parser.rs:32-101 | every failure of the parser is either the first operand's failure or, after an operand and an operator, the failure of the expression that follows |
| `ParserProperties.ParseSucceedsIffParsable` | src/ast/parser.rs:32-57 | the parser succeeds exactly on token sequences that are a chain's tokens followed by a stop |
| `ParserProperties.ChainsUnambiguous` | src/ast/parser.rs:39-79 | a token sequence is the tokens of at most one chain and stop |
| `PrecedenceParser.TermTail` | src/ast/parser.rs:59-79 | the intended loop of a term (a unary, then any number of `*` or `/` each followed by a unary) keeps a left-grouped product that flattens back to the consumed tokens |
| `PrecedenceParser.ParseTerm` | src/ast/parser.rs:59-79 | a term is a left-grouped product, and stops where no `*` or `/` follows |
| `PrecedenceParser.ExpressionTail` | src/ast/parser.rs:36-57 | the intended loop of an expression (a term, then any number of `+` or `-` each followed by a term) keeps a left-grouped sum that flattens back to the consumed tokens |
| `PrecedenceParser.ParseExpression` | src/ast/parser.rs:36-57 | an expression is a left-grouped sum of products, and stops where no arithmetic operator follows |
| `PrecedenceParser.TermRoundTrip` | src/ast/parser.rs:59-79 | a product's tokens parse back to that product |
| `PrecedenceParser.ExpressionRoundTrip` | src/ast/parser.rs:36-57 | a sum's tokens parse back to that sum |
| `PrecedenceParser.ParseRoundTrip` | src/ast/parser.rs:36-79 | every left-grouped sum of products, followed by a stop, parses back to itself |
| `PrecedenceParser.ProductHasNoSum` | src/ast/parser.rs:59-79 | a binary product is rooted at `*` or `/`, and no `+` or `-` node sits anywhere inside a product |
| `ParserExamples.AsWrittenProductSwallowsSum` | src/ast/parser.rs:62-79 | "2 * 3 + 4" parses as 2 * (3 + 4) |
| `ParserExamples.AsWrittenProductContainsSum` | src/ast/parser.rs:62-79 | the tree built for "2 * 3 + 4" is rooted at `*` yet holds a `+` node, so it is no product of the documented grammar |
| `ParserExamples.AsWrittenProductSwallowsSumValue` | src/ast/expressions.rs:41-43 | 2 * (3 + 4) evaluates to 14 |
| `ParserExamples.PrecedenceProductBeforeSum` | src/ast/parser.rs:61 | under the intended grammar "2 * 3 + 4" parses as (2 * 3) + 4 |
| `ParserExamples.PrecedenceProductBeforeSumValue` | src/ast/expressions.rs:41-43 | (2 * 3) + 4 evaluates to 10 |
| `ParserExamples.AsWrittenSubtractionGroupsRight` | src/ast/parser.rs:39-57 | "10 - 2 - 3" parses as 10 - (2 - 3) |
| `ParserExamples.AsWrittenSubtractionGroupsRightValue` | src/ast/expressions.rs:41-42 | 10 - (2 - 3) evaluates to 11 |
| `ParserExamples.PrecedenceSubtractionGroupsLeft` | src/ast/parser.rs:38 | under the intended grammar "10 - 2 - 3" parses as (10 - 2) - 3 |
| `ParserExamples.PrecedenceSubtractionGroupsLeftValue` | src/ast/expressions.rs:41-42 | (10 - 2) - 3 evaluates to 5 |
| `ParserExamples.NegationBindsTightest` | src/ast/parser.rs:84-101 | "- 3 * 4" parses as (-3) * 4 |
| `ParserExamples.TrailingTokensLeft` | src/ast/parser.rs:39-57 | "1 + 2 3" parses 1 + 2 and leaves 3 unconsumed |
| `ParserExamples.EmptyInputFails` | src/ast/parser.rs:99 | no tokens fails with the `EndOfInput` error, whose message is "end of input" |
| `ParserExamples.IncompleteExpressionFails` | src/ast/parser.rs:42-49 | "1 +" fails with the `EndOfInput` error, whose message is "end of input" |
| `ParserExamples.LeadingPlusFails` | src/ast/parser.rs:95 | "+ 3" fails with the `UnexpectedFromUnary` error, whose message is "unexpected token from unary" |
| `ParserExamples.DoubleNegationFails` | src/ast/parser.rs:106-114 | "- - 3" fails with the `UnexpectedToken` error, whose message is "unexpected token" |
| `ParserExamples.DivisionByZeroFails` | src/ast/expressions.rs:44 | 1 / (2 - 2) fails with a division by zero |

## Left out

- f64 semantics. The rounding of `str::parse::<f64>` and the float `Display` of `Token::Number` are not modelled; a number token carries the exact decimal value of its lexeme.
- Non-ASCII digits. `char::is_numeric` also accepts other Unicode numerals, which would make the final `.expect` of `parse_number` panic. Digits here are '0' to '9'.
- `i32` arithmetic. `eval` uses unbounded integers, so overflow is not modelled. An overflowing `+`, `-`, `*`, or the `* (-1)` that negates `i32::MIN`, panics in a debug build and wraps in a release build. `i32::MIN / -1` panics in both.
- Division by zero. In the code it is a panic; here it is the error value `DivisionByZero`.
- Expressions.Eval: its own contract only bounds when evaluation can fail, and `EvalFailsIffDividesByZero` says exactly when it fails. No contract states the values it computes. They come from `Eval`'s defining equations, which follow src/ast/expressions.rs:41-51 case by case, and from the contract of `TruncDiv`.
- `src/repl.rs`: a stdin/stdout prompt loop that only echoes its input. It is pure I/O.
- Iterator mechanics. `Chars::clone`, the generic `I: Iterator + Clone` bound and lifetimes are replaced by sequence cursors.
- Lexer-to-parser wiring. The two token types are incompatible, and no glue code exists.
- The parser's `Token` display. It is not among the files modelled; an integer is assumed to display in decimal with a leading '-' when negative, and an operator as its string.
- Unused code. The `Debug`/`Error` trait impls, `Parser::new`, the `BinaryExpr`/`UnaryExpr` constructors (inlined as datatype constructors) and the unused `LiteralExpr` struct are not modelled.

## Findings

| source | as written | input that shows it | evidently intended | confidence | as-written member | corrected member |
|---|---|---|---|---|---|---|
| src/ast/parser.rs:62-79 | the right operand of `*` or `/` in `term` is a whole `expression`, so a product swallows the sum that follows it | "2 * 3 + 4" parses as 2 * (3 + 4) and evaluates to 14 | the term grammar in the doc comment at line 61, under which it parses as (2 * 3) + 4 and evaluates to 10 | not executed | `ParserExamples.AsWrittenProductContainsSum` | `PrecedenceParser.ProductHasNoSum` |
| src/ast/parser.rs:39-57 | `expression` parses one term, then at most one `+` or `-` and a recursive `expression`, so chains group to the right | "10 - 2 - 3" parses as 10 - (2 - 3) and evaluates to 11 | the expression grammar in the doc comment at line 38, which groups to the left, giving (10 - 2) - 3 and 5 | not executed | `ParserExamples.AsWrittenSubtractionGroupsRight` | `PrecedenceParser.ParseRoundTrip` |

=== FILE: expressions.dfy ===
/**
  The expression tree of src/ast/expressions.rs: its fully parenthesised
  rendering and its evaluation to an integer.
 */
module Expressions {
  import opened Wrappers
  import opened Syntax

  /** `Expression`, with the boxed `BinaryExpr` and `UnaryExpr` structs inlined as constructor fields. */
  datatype Expression =
    | Binary(left: Expression, operator: Token, right: Expression)
    | Unary(operator: Token, expr: Expression)
    | Literal(token: Token)

  // ---------------------------------------------------------------------------
  // Display

  /** `Display`: every `Binary` and `Unary` node in parentheses, a space around a binary operator and after a unary one. */
  function Render(e: Expression): (s: string)
    ensures !e.Literal? ==> |s| >= 2 && s[0] == '(' && s[|s| - 1] == ')'
  {
    match e
    case Binary(l, op, r) => Parenthesise(Render(l) + " " + TokenText(op) + " " + Render(r))
    case Unary(op, x) => Parenthesise(TokenText(op) + " " + Render(x))
    case Literal(t) => TokenText(t)
  }

  function Parenthesise(inner: string): string
  {
    "(" + inner + ")"
  }

  /** Number of `Binary` and `Unary` nodes. */
  function Nodes(e: Expression): nat
  {
    match e
    case Binary(l, _, r) => 1 + Nodes(l) + Nodes(r)
    case Unary(_, x) => 1 + Nodes(x)
    case Literal(_) => 0
  }

  /** No operator token of the tree is written with a parenthesis. */
  predicate OperatorsParenFree(e: Expression)
  {
    match e
    case Binary(l, op, r) => ParenFree(op) && OperatorsParenFree(l) && OperatorsParenFree(r)
    case Unary(op, x) => ParenFree(op) && OperatorsParenFree(x)
    case Literal(t) => ParenFree(t)
  }

  predicate ParenFree(t: Token)
  {
    t.Operator? ==> '(' !in t.symbol && ')' !in t.symbol
  }

  /** A token whose operator text holds no parenthesis renders without any. */
  lemma TokenTextParenFree(t: Token)
    requires ParenFree(t)
    ensures '(' !in TokenText(t) && ')' !in TokenText(t)
  {
    if t.Integer? {
      var n := t.value;
      var digits := if n < 0 then -n else n;
      NatTextDigits(digits);
      assert '(' !in NatText(digits) && ')' !in NatText(digits);
    }
  }

  /** Number of occurrences of `c` in `s`. */
  function Occurrences(s: string, c: char): nat
  {
    if |s| == 0 then 0 else (if s[0] == c then 1 else 0) + Occurrences(s[1..], c)
  }

  /** Counting occurrences is counting multiplicity. */
  lemma {:induction false} OccurrencesIsMultiplicity(s: string, c: char)
    ensures Occurrences(s, c) == multiset(s)[c]
  {
    if |s| > 0 {
      OccurrencesIsMultiplicity(s[1..], c);
      assert s == [s[0]] + s[1..];
      assert multiset(s) == multiset{s[0]} + multiset(s[1..]);
    }
  }

  /** Occurrences add up over a concatenation. */
  lemma {:induction false} OccurrencesAppend(a: string, b: string, c: char)
    ensures Occurrences(a + b, c) == Occurrences(a, c) + Occurrences(b, c)
  {
    if |a| > 0 {
      OccurrencesAppend(a[1..], b, c);
      assert (a + b)[1..] == a[1..] + b;
    } else {
      assert a + b == b;
    }
  }

  /** A character that does not occur has no occurrences. */
  lemma OccurrencesAbsent(s: string, c: char)
    ensures c !in s ==> Occurrences(s, c) == 0
  {
    OccurrencesIsMultiplicity(s, c);
  }

  /**
    The rendering is balanced: it holds as many '(' as ')', one pair per
    `Binary` or `Unary` node.
   */
  lemma RenderBalanced(e: Expression)
    requires OperatorsParenFree(e)
    ensures multiset(Render(e))['('] == Nodes(e)
    ensures multiset(Render(e))[')'] == Nodes(e)
  {
    RenderOccurrences(e, '(');
    RenderOccurrences(e, ')');
    OccurrencesIsMultiplicity(Render(e), '(');
    OccurrencesIsMultiplicity(Render(e), ')');
  }

  /** Each `Binary` and `Unary` node contributes one '(' and one ')' to the rendering, and nothing else does. */
  lemma {:induction false} RenderOccurrences(e: Expression, p: char)
    requires OperatorsParenFree(e)
    requires p == '(' || p == ')'
    ensures Occurrences(Render(e), p) == Nodes(e)
  {
    match e
    case Binary(l, op, r) =>
      RenderOccurrences(l, p);
      RenderOccurrences(r, p);
      BinaryOccurrences(l, op, r, p);
    case Unary(op, x) =>
      RenderOccurrences(x, p);
      UnaryOccurrences(op, x, p);
    case Literal(t) =>
      TokenTextParenFree(t);
      OccurrencesAbsent(TokenText(t), p);
  }

  /** A binary node adds one parenthesis of each kind to those of its operands. */
  lemma BinaryOccurrences(l: Expression, op: Token, r: Expression, p: char)
    requires ParenFree(op)
    requires p == '(' || p == ')'
    ensures Occurrences(Render(Binary(l, op, r)), p) == Occurrences(Render(l), p) + Occurrences(Render(r), p) + 1
  {
    TokenTextParenFree(op);
    OccurrencesAbsent(TokenText(op), p);
    var a, b, c := Render(l), TokenText(op), Render(r);
    OccurrencesAppend(a + " " + b + " ", c, p);
    OccurrencesAppend(a + " " + b, " ", p);
    OccurrencesAppend(a + " ", b, p);
    OccurrencesAppend(a, " ", p);
    Parenthesised(a + " " + b + " " + c, p);
  }

  /** A unary node adds one parenthesis of each kind to those of its operand. */
  lemma UnaryOccurrences(op: Token, x: Expression, p: char)
    requires ParenFree(op)
    requires p == '(' || p == ')'
    ensures Occurrences(Render(Unary(op, x)), p) == Occurrences(Render(x), p) + 1
  {
    TokenTextParenFree(op);
    OccurrencesAbsent(TokenText(op), p);
    var b, c := TokenText(op), Render(x);
    OccurrencesAppend(b + " ", c, p);
    OccurrencesAppend(b, " ", p);
    Parenthesised(b + " " + c, p);
  }

  /** Wrapping a text in parentheses adds one of each. */
  lemma Parenthesised(inner: string, p: char)
    requires p == '(' || p == ')'
    ensures Occurrences(Parenthesise(inner), p) == Occurrences(inner, p) + 1
  {
    OccurrencesAppend("(" + inner, ")", p);
    OccurrencesAppend("(", inner, p);
  }

  /** A unary minus renders with a space after the operator, as "(- 3)". */
  lemma RenderNegatedLiteral()
    ensures Render(Unary(Operator("-"), Literal(Integer(3)))) == "(- 3)"
  {
    assert NatText(3) == "3";
  }

  // ---------------------------------------------------------------------------
  // Evaluation

  /** The four binary operator tokens the evaluator knows. */
  predicate IsArithmetic(t: Token)
  {
    t == Operator("+") || t == Operator("-") || t == Operator("*") || t == Operator("/")
  }

  /**
    The trees `eval` handles without reaching `unreachable!`: binary nodes
    carry one of the four operators, unary nodes a "-", leaves an integer.
   */
  predicate WellFormed(e: Expression)
  {
    match e
    case Binary(l, op, r) => IsArithmetic(op) && WellFormed(l) && WellFormed(r)
    case Unary(op, x) => op == Operator("-") && WellFormed(x)
    case Literal(t) => t.Integer?
  }

  /** The operators of a well-formed tree are the four arithmetic symbols and "-", none of which holds a parenthesis. */
  lemma {:induction false} WellFormedParenFree(e: Expression)
    requires WellFormed(e)
    ensures OperatorsParenFree(e)
  {
    match e
    case Binary(l, op, r) =>
      WellFormedParenFree(l);
      WellFormedParenFree(r);
    case Unary(_, x) =>
      WellFormedParenFree(x);
    case Literal(_) =>
  }

  /** The one runtime failure of `eval`: an integer division by zero, which panics in the source. */
  datatype EvalError = DivisionByZero

  function Abs(n: int): nat
  {
    if n < 0 then -n else n
  }

  /** Integer division rounding toward zero, as Rust's `/` on integers (Dafny's `/` is Euclidean). */
  function TruncDiv(a: int, b: int): (q: int)
    requires b != 0
    ensures Abs(a - q * b) < Abs(b)
    ensures a - q * b == 0 || (a - q * b < 0 <==> a < 0)
  {
    var q := Abs(a) / Abs(b);
    TruncRemainder(a, b);
    if (a < 0) == (b < 0) then q else -q
  }

  /** The remainder left by the truncated quotient is the remainder of the magnitudes, with the dividend's sign. */
  lemma TruncRemainder(a: int, b: int)
    requires b != 0
    ensures var q := Abs(a) / Abs(b);
            var m := Abs(a) % Abs(b);
            a - (if (a < 0) == (b < 0) then q else -q) * b == (if a < 0 then -m else m)
  {
    var q, m := Abs(a) / Abs(b), Abs(a) % Abs(b);
    assert Abs(a) == q * Abs(b) + m;
    if b > 0 {
      assert Abs(b) == b;
      if a < 0 {
        assert a - (-q) * b == -(q * b + m) + q * b;
      }
    } else {
      assert Abs(b) == -b;
      assert q * Abs(b) == -(q * b);
      if a < 0 {
        assert a - q * b == -(q * Abs(b) + m) - q * b;
      } else {
        assert a - (-q) * b == (q * Abs(b) + m) + q * b;
      }
    }
  }

  /** The quotient rounding toward zero is the only one with a remainder smaller than the divisor and of the dividend's sign. */
  lemma TruncDivUnique(a: int, b: int, q: int)
    requires b != 0
    requires Abs(a - q * b) < Abs(b)
    requires a - q * b == 0 || (a - q * b < 0 <==> a < 0)
    ensures q == TruncDiv(a, b)
  {
    var t := TruncDiv(a, b);
    var r, rt := a - q * b, a - t * b;
    assert (q - t) * b == rt - r;
    assert Abs(rt - r) < Abs(b);
    MultipleAtLeast(q - t, b);
  }

  /** A non-zero multiple of `b` is at least as large as `b`. */
  lemma MultipleAtLeast(k: int, b: int)
    ensures k != 0 ==> Abs(k * b) >= Abs(b)
  {
    if k > 0 {
      if b >= 0 {
        assert k * b >= b;
      } else {
        assert k * b <= b;
      }
    } else if k < 0 {
      if b >= 0 {
        assert k * b <= -b;
      } else {
        assert k * b >= -b;
      }
    }
  }

  /** Truncating and Euclidean division agree on non-negative operands and differ on a negative dividend: -7 / 2 is -3, not -4. */
  lemma TruncDivVersusEuclidean(a: int, b: int)
    requires a >= 0 && b > 0
    ensures TruncDiv(a, b) == a / b
    ensures TruncDiv(-7, 2) == -3 && -7 / 2 == -4
  {
  }

  /** Does the tree hold a "/" node? */
  predicate HasDivision(e: Expression)
  {
    match e
    case Binary(l, op, r) => op == Operator("/") || HasDivision(l) || HasDivision(r)
    case Unary(_, x) => HasDivision(x)
    case Literal(_) => false
  }

  /**
    `eval`: leaves are their integer, a unary minus multiplies by -1, and a
    binary node applies its operator to the left value and then the right
    one; a failure in either child propagates. Integers are unbounded.
   */
  function Eval(e: Expression): (r: Result<int, EvalError>)
    requires WellFormed(e)
    ensures r.Err? ==> HasDivision(e)
  {
    match e
    case Literal(t) => Ok(t.value)
    case Unary(_, x) =>
      var v := Eval(x);
      if v.Err? then v else Ok(v.value * (-1))
    case Binary(l, op, r) =>
      var lv := Eval(l);
      if lv.Err? then lv
      else
        var rv := Eval(r);
        if rv.Err? then rv
        else if op.symbol == "+" then Ok(lv.value + rv.value)
        else if op.symbol == "-" then Ok(lv.value - rv.value)
        else if op.symbol == "*" then Ok(lv.value * rv.value)
        else if rv.value == 0 then Err(DivisionByZero)
        else Ok(TruncDiv(lv.value, rv.value))
  }

  /** Some "/" node's divisor evaluates to zero. */
  predicate DividesByZero(e: Expression)
    requires WellFormed(e)
  {
    match e
    case Binary(l, op, r) => DividesByZero(l) || DividesByZero(r) || (op == Operator("/") && Eval(r) == Ok(0))
    case Unary(_, x) => DividesByZero(x)
    case Literal(_) => false
  }

  /** Evaluation fails exactly when some divisor evaluates to zero, wherever it sits in the tree. */
  lemma {:induction false} EvalFailsIffDividesByZero(e: Expression)
    requires WellFormed(e)
    ensures Eval(e).Err? <==> DividesByZero(e)
  {
    match e
    case Binary(l, op, r) =>
      EvalFailsIffDividesByZero(l);
      EvalFailsIffDividesByZero(r);
    case Unary(_, x) =>
      EvalFailsIffDividesByZero(x);
    case Literal(_) =>
  }

  /** A negated literal evaluates to the literal's negation. */
  lemma EvalNegatedLiteral(n: int)
    ensures Eval(Unary(Operator("-"), Literal(Integer(n)))) == Ok(-n)
  {
  }
}

=== FILE: legacy_tokenizer.dfy ===
/**
  The earlier, single-file tokenizer (src/tokenizer.rs). Its scanners and
  token types are the ones of src/tokenizer/ (the code is repeated verbatim),
  so they are shared with the `Lexer` and `Tokens` modules; the difference is
  that a step no scanner accepts panics with "unexpected token" instead of
  returning an error.
 */
module LegacyTokenizer {
  import opened Tokens
  import opened Lexer
  import Scanner

  /** How a call ended: it returned normally, leaving the tokenizer in `state`, or it panicked. */
  datatype Outcome = Returned(state: Scanner.Tokenizer) | Panicked(message: string)

  /** `scan_token`: as the newer one, but a character neither scanner accepts is a panic. */
  function ScanToken(tz: Scanner.Tokenizer): (r: Outcome)
    ensures r.Returned? <==> Scanner.ScanToken(tz).status.Succeeded?
    ensures r.Returned? ==> r.state == Scanner.ScanToken(tz).state
    ensures r.Panicked? && !Scanner.IsEnd(tz) ==> r.message == Scanner.UnexpectedToken
  {
    match ParseNumber(tz.chars)
    case Accept(t, rest) => Returned(Scanner.Tokenizer(rest, Scanner.Push(tz.tokens, t)))
    case Panic(m) => Panicked(m)
    case Reject(_, rest) =>
      match ParseOperator(rest)
      case Accept(t, rest') => Returned(Scanner.Tokenizer(rest', Scanner.Push(tz.tokens, t)))
      case Reject(_, _) => Panicked(Scanner.UnexpectedToken)
      case Panic(m) => Panicked(m)
  }

  /** `tokenize`: scan while characters remain. */
  function Tokenize(tz: Scanner.Tokenizer): (r: Outcome)
    ensures r.Returned? ==> Scanner.IsEnd(r.state) && tz.tokens <= r.state.tokens
    ensures r.Panicked? ==> r.message == Scanner.UnexpectedToken
    decreases |tz.chars|
  {
    if Scanner.IsEnd(tz) then Returned(tz)
    else
      match ScanToken(tz)
      case Returned(next) => Tokenize(next)
      case Panicked(m) => Panicked(m)
  }

  /**
    The two tokenizers agree: the old one returns exactly when the new one
    succeeds, with the same tokens, and panics with the message of the error
    the new one returns.
   */
  lemma {:induction false} TokenizeAgrees(tz: Scanner.Tokenizer)
    ensures var legacy := Tokenize(tz);
            var current := Scanner.Tokenize(tz);
            && (legacy.Returned? <==> current.status.Succeeded?)
            && (legacy.Returned? ==> legacy.state == current.state)
            && (legacy.Panicked? ==> current.status == Scanner.Failed(Scanner.TokenizerError(legacy.message)))
    decreases |tz.chars|
  {
    if !Scanner.IsEnd(tz) && ScanToken(tz).Returned? {
      TokenizeAgrees(ScanToken(tz).state);
    }
  }
}

=== FILE: lexer.dfy ===
/**
  The two sub-scanners of the lexer (src/tokenizer/helpers.rs; the same code is
  repeated in src/tokenizer.rs:41-102).

  The source hands each sub-scanner a mutable character iterator. Here the
  cursor is the remaining input, and a scanner returns the cursor it leaves
  behind together with its outcome:
  - `Accept(Some(t), rest)` is `Ok(Some(t))`, `Accept(None, rest)` is `Ok(None)`;
  - `Reject(msg, rest)` is `Err(msg)`, with the cursor where the scanner left it;
  - `Panic(msg)` is the `.expect(msg)` that aborts the program.
 */
module Lexer {
  import opened Wrappers
  import opened Tokens

  datatype Scan =
    | Accept(token: Option<Token>, rest: seq<char>)
    | Reject(message: string, rest: seq<char>)
    | Panic(message: string)

  const OperatorError: string := "cannot parse operator"
  const NumberError: string := "cannot parse number"

  /** Decimal digits. `char::is_numeric` also admits other Unicode numerals; they are not modelled. */
  predicate IsDigit(c: char)
  {
    '0' <= c <= '9'
  }

  /** The characters the operator scanner skips. */
  predicate IsBlank(c: char)
  {
    c == ' ' || c == '\n'
  }

  /** `parse_operator`: one operator token, a skipped blank, or an error that consumes nothing. */
  function ParseOperator(chars: seq<char>): (r: Scan)
    ensures !r.Panic?
    ensures r.Accept? <==> |chars| > 0 && (IsOperatorSymbol(chars[0]) || IsBlank(chars[0]))
    ensures r.Accept? ==> r.rest == chars[1..]
    ensures r.Accept? ==> (r.token.Some? <==> IsOperatorSymbol(chars[0]))
    ensures r.Accept? && r.token.Some? ==> r.token.value.Operator? && Symbol(r.token.value.op) == chars[0]
    ensures r.Reject? ==> r == Reject(OperatorError, chars)
  {
    var token: Result<Option<Token>, string> :=
      match Peek(chars)
      case Some('+') => Ok(Some(Operator(Plus)))
      case Some('-') => Ok(Some(Operator(Minus)))
      case Some('*') => Ok(Some(Operator(Star)))
      case Some('/') => Ok(Some(Operator(Slash)))
      case Some('\n') => Ok(None)
      case Some(' ') => Ok(None)
      case _ => Err(OperatorError);
    if token.Ok? then Accept(token.value, chars[1..]) else Reject(token.error, chars)
  }

  /** Feeding an operator's rendering to `parse_operator` gives that operator back. */
  lemma ParseOperatorRoundTrip(op: Operator, rest: seq<char>)
    ensures ParseOperator(OperatorText(op) + rest) == Accept(Some(Operator(op)), rest)
  {
    var s := OperatorText(op) + rest;
    assert s[0] == Symbol(op) && s[1..] == rest;
  }

  // ---------------------------------------------------------------------------
  // Number lexemes: digit+ ('.' digit*)?

  /** Length of the longest all-digit prefix of `s`. */
  function DigitRun(s: seq<char>): (n: nat)
    ensures n <= |s|
    ensures forall i :: 0 <= i < n ==> IsDigit(s[i])
    ensures n == |s| || !IsDigit(s[n])
  {
    if |s| > 0 && IsDigit(s[0]) then 1 + DigitRun(s[1..]) else 0
  }

  /** How far a number that has not yet seen a '.' extends into `s`. */
  function FractionEnd(s: seq<char>): (n: nat)
    ensures n <= |s|
  {
    var i := DigitRun(s);
    if i < |s| && s[i] == '.' then i + 1 + DigitRun(s[i + 1..]) else i
  }

  /** Length of the longest prefix of `s` of the form digit+ ('.' digit*)?, or 0 if there is none. */
  function LexemeLength(s: seq<char>): (n: nat)
    ensures n <= |s|
  {
    if |s| > 0 && IsDigit(s[0]) then FractionEnd(s) else 0
  }

  /** A well-formed number lexeme: a leading digit, then digits and at most one '.'. */
  predicate IsNumberLexeme(s: seq<char>)
  {
    && |s| > 0
    && IsDigit(s[0])
    && (forall i :: 0 <= i < |s| ==> IsDigit(s[i]) || s[i] == '.')
    && multiset(s)['.'] <= 1
  }

  /** What the number scanner has collected so far: empty, or a lexeme. */
  predicate IsPartialLexeme(acc: seq<char>)
  {
    acc == [] || IsNumberLexeme(acc)
  }

  function DigitValue(c: char): nat
  {
    if IsDigit(c) then (c as int - '0' as int) else 0
  }

  /** The natural number a run of digits spells. */
  function DigitsValue(ds: seq<char>): nat
  {
    if |ds| == 0 then 0 else DigitsValue(ds[..|ds| - 1]) * 10 + DigitValue(ds[|ds| - 1])
  }

  /** The value of the digits after a '.': 0.d1d2d3... (only divisions by the constant ten). */
  function FractionValue(ds: seq<char>): real
  {
    if |ds| == 0 then 0.0 else (DigitValue(ds[0]) as real + FractionValue(ds[1..])) / 10.0
  }

  /** Index of the first '.' in `s`, or `|s|` when there is none. */
  function DotIndex(s: seq<char>): (i: nat)
    ensures i <= |s|
    ensures forall j :: 0 <= j < i ==> s[j] != '.'
    ensures i < |s| ==> s[i] == '.'
  {
    if |s| == 0 then 0 else if s[0] == '.' then 0 else 1 + DotIndex(s[1..])
  }

  /** The exact decimal value of a number lexeme: what `str::parse::<f64>` approximates. */
  function LexemeValue(lex: seq<char>): real
  {
    var i := DotIndex(lex);
    if i == |lex| then DigitsValue(lex) as real
    else DigitsValue(lex[..i]) as real + FractionValue(lex[i + 1..])
  }

  /** The end of `parse_number`: parse what was collected, panicking when it is empty. */
  function Finish(acc: seq<char>, rest: seq<char>): Scan
  {
    if acc == [] then Panic(NumberError) else Accept(Some(Number(LexemeValue(acc))), rest)
  }

  /** How many more characters the number scanner takes after having collected `acc`. */
  function Reach(acc: seq<char>, chars: seq<char>): (k: nat)
    ensures k <= |chars|
  {
    if acc == [] then LexemeLength(chars)
    else if '.' in acc then DigitRun(chars)
    else FractionEnd(chars)
  }

  /**
    What the number loop yields once `acc` has been collected and `chars`
    remain: with nothing collected, a panic on empty input and a rejection on a
    leading non-digit; otherwise the characters up to the reach are consumed,
    and a '.' found there is rejected, while anything else ends the number.
   */
  predicate LoopResult(acc: seq<char>, chars: seq<char>, r: Scan)
  {
    if acc == [] && |chars| == 0 then r == Panic(NumberError)
    else if acc == [] && !IsDigit(chars[0]) then r == Reject(NumberError, chars)
    else
      var k := Reach(acc, chars);
      r == if k < |chars| && chars[k] == '.' then Reject(NumberError, chars[k..])
           else Accept(Some(Number(LexemeValue(acc + chars[..k]))), chars[k..])
  }

  /**
    The `while let Some(c) = peek(chars)` loop of `parse_number`, with `acc`
    the characters collected so far. A second '.' is an error raised after the
    characters before it have been consumed.
   */
  function NumberLoop(acc: seq<char>, chars: seq<char>): (r: Scan)
    requires IsPartialLexeme(acc)
    ensures LoopResult(acc, chars, r)
    decreases |chars|
  {
    if |chars| == 0 then
      assert acc + chars[..0] == acc;
      Finish(acc, chars)
    else
      var c := chars[0];
      if !IsDigit(c) && acc == [] then
        Reject(NumberError, chars)
      else if c == '.' then
        if '.' in acc then
          Reject(NumberError, chars)
        else
          ExtendPartialLexeme(acc, c);
          var r := NumberLoop(acc + [c], chars[1..]);
          LoopResultStep(acc, chars, r);
          r
      else if !IsDigit(c) then
        assert acc + chars[..0] == acc;
        Finish(acc, chars)
      else
        ExtendPartialLexeme(acc, c);
        var r := NumberLoop(acc + [c], chars[1..]);
        LoopResultStep(acc, chars, r);
        r
  }

  /** Consuming one character carries the loop's result back to the state before it. */
  lemma LoopResultStep(acc: seq<char>, chars: seq<char>, r: Scan)
    requires IsPartialLexeme(acc)
    requires |chars| > 0
    requires IsDigit(chars[0]) || (chars[0] == '.' && acc != [] && '.' !in acc)
    requires LoopResult(acc + [chars[0]], chars[1..], r)
    ensures LoopResult(acc, chars, r)
  {
    NumberLoopStep(acc, chars);
    var k := Reach(acc + [chars[0]], chars[1..]);
    NumberLoopShift(acc, chars, k);
    if k < |chars[1..]| {
      assert chars[1..][k] == chars[k + 1];
    }
  }

  /** Moving one character from the input to the collected characters does not change what is consumed in all. */
  lemma NumberLoopShift(acc: seq<char>, chars: seq<char>, k: nat)
    requires k < |chars|
    ensures (acc + [chars[0]]) + chars[1..][..k] == acc + chars[..k + 1]
    ensures chars[1..][k..] == chars[k + 1..]
  {
    assert chars[..k + 1] == [chars[0]] + chars[1..][..k];
  }

  /** One consuming iteration keeps the collected characters a partial lexeme. */
  lemma ExtendPartialLexeme(acc: seq<char>, c: char)
    requires IsPartialLexeme(acc)
    requires IsDigit(c) || (c == '.' && acc != [] && '.' !in acc)
    ensures IsPartialLexeme(acc + [c])
  {
    var acc' := acc + [c];
    assert multiset(acc') == multiset(acc) + multiset{c};
    if acc == [] {
      assert acc' == [c];
    } else {
      assert acc'[0] == acc[0];
      assert forall i :: 0 <= i < |acc| ==> acc'[i] == acc[i];
    }
  }

  /** Consuming a digit moves the reach of a number without a '.' by one. */
  lemma FractionEndStep(chars: seq<char>)
    requires |chars| > 0 && IsDigit(chars[0])
    ensures FractionEnd(chars) == 1 + FractionEnd(chars[1..])
  {
    var i := DigitRun(chars[1..]);
    assert DigitRun(chars) == 1 + i;
    if i < |chars[1..]| {
      assert chars[1..][i] == chars[i + 1];
      assert chars[1..][i + 1..] == chars[i + 2..];
    }
  }

  /** One consuming iteration of the number loop moves the reach by one. */
  lemma NumberLoopStep(acc: seq<char>, chars: seq<char>)
    requires IsPartialLexeme(acc)
    requires |chars| > 0
    requires IsDigit(chars[0]) || (chars[0] == '.' && acc != [] && '.' !in acc)
    ensures IsPartialLexeme(acc + [chars[0]])
    ensures Reach(acc, chars) == Reach(acc + [chars[0]], chars[1..]) + 1
  {
    var c := chars[0];
    ExtendPartialLexeme(acc, c);
    var acc' := acc + [c];
    if acc == [] {
      assert '.' !in acc';
      FractionEndStep(chars);
    } else if '.' in acc {
      assert '.' in acc';
    } else if c == '.' {
      assert '.' in acc';
    } else {
      assert '.' !in acc';
      FractionEndStep(chars);
    }
  }

  /**
    `parse_number`: the longest digit+ ('.' digit*)? prefix, rejected when a
    second '.' follows it; a leading non-digit is rejected without consuming,
    and an empty input makes the final `.expect` panic.
   */
  function ParseNumber(chars: seq<char>): (r: Scan)
    ensures r.Panic? <==> |chars| == 0
    ensures r.Panic? ==> r.message == NumberError
    ensures r.Accept? <==>
              LexemeLength(chars) > 0 && (LexemeLength(chars) == |chars| || chars[LexemeLength(chars)] != '.')
    ensures r.Accept? ==>
              && r.token == Some(Number(LexemeValue(chars[..LexemeLength(chars)])))
              && r.rest == chars[LexemeLength(chars)..]
    ensures r.Reject? ==> r.message == NumberError && r.rest == chars[LexemeLength(chars)..]
  {
    var r := NumberLoop([], chars);
    if |chars| > 0 && IsDigit(chars[0]) then
      assert LexemeLength(chars) >= DigitRun(chars) >= 1;
      assert [] + chars[..LexemeLength(chars)] == chars[..LexemeLength(chars)];
      r
    else
      assert LexemeLength(chars) == 0 && chars[0..] == chars;
      r
  }
}

=== FILE: lexer_examples.dfy ===
/** Worked inputs of the lexer, including the ones its unit tests use. */
module LexerExamples {
  import opened Wrappers
  import opened Tokens
  import opened Lexer
  import opened Scanner
  import opened LexerProperties

  /** "4.33" is four and thirty-three hundredths, exactly. */
  lemma FractionalLexemeValue()
    ensures LexemeValue("4.33") == 4.33
  {
    assert DotIndex("4.33") == 1;
    assert "4.33"[..1] == "4";
    assert "4.33"[2..] == "33";
    assert "33"[1..] == "3";
    assert DigitsValue("4") == 4;
  }

  /** One-digit lexemes are their digit. */
  lemma DigitLexemeValues()
    ensures LexemeValue("3") == 3.0 && LexemeValue("5") == 5.0
  {
    assert DotIndex("3") == 1 && DotIndex("5") == 1;
    assert DigitsValue("3") == 3 && DigitsValue("5") == 5;
  }

  /** Digits with one '.' after the first digit form a number lexeme that holds a '.'. */
  lemma OneDotLexeme(s: string, i: nat)
    requires 0 < i < |s| && s[i] == '.'
    requires forall j :: 0 <= j < |s| && j != i ==> IsDigit(s[j])
    ensures IsNumberLexeme(s) && '.' in s
  {
    assert s == s[..i] + [s[i]] + s[i + 1..];
    NoDotInDigits(s[..i]);
    NoDotInDigits(s[i + 1..]);
    assert multiset(s) == multiset(s[..i]) + multiset{'.'} + multiset(s[i + 1..]);
  }

  /** A lexeme may end in its '.': "3." is a lexeme, the number scanner accepts it whole, and it is three. */
  lemma TrailingDotLexemeValue()
    ensures IsNumberLexeme("3.")
    ensures LexemeValue("3.") == 3.0
    ensures ParseNumber("3.") == Accept(Some(Number(3.0)), [])
  {
    assert multiset("3.")['.'] == 1;
    TrailingDotValue();
    ParseNumberOfLexeme("3.", []);
    assert "3." + [] == "3.";
  }

  lemma TrailingDotValue()
    ensures LexemeValue("3.") == 3.0
  {
    assert DotIndex("3.") == 1;
    assert "3."[..1] == "3";
    assert "3."[2..] == [];
    assert DigitsValue("3") == 3;
  }

  /** The pieces of "3 + 4.33 / 5", in three groups of three. */
  const ArithmeticHead: seq<Piece> := [NumberPiece("3"), BlankPiece(' '), OperatorPiece(Plus)]
  const ArithmeticMiddle: seq<Piece> := [BlankPiece(' '), NumberPiece("4.33"), BlankPiece(' ')]
  const ArithmeticLast: seq<Piece> := [OperatorPiece(Slash), BlankPiece(' '), NumberPiece("5")]

  function ArithmeticPieces(): seq<Piece>
  {
    ArithmeticHead + ArithmeticMiddle + ArithmeticLast
  }

  lemma ArithmeticPiecesValid()
    ensures ValidPieces(ArithmeticPieces())
  {
    ArithmeticLexemes();
    ValidThree(NumberPiece("3"), BlankPiece(' '), OperatorPiece(Plus));
    ValidThree(BlankPiece(' '), NumberPiece("4.33"), BlankPiece(' '));
    ValidThree(OperatorPiece(Slash), BlankPiece(' '), NumberPiece("5"));
    ValidPiecesJoin(ArithmeticHead, ArithmeticMiddle);
    ValidPiecesJoin(ArithmeticHead + ArithmeticMiddle, ArithmeticLast);
  }

  /** The three numbers of the arithmetic example are well-formed lexemes. */
  lemma ArithmeticLexemes()
    ensures IsNumberLexeme("3") && IsNumberLexeme("4.33") && IsNumberLexeme("5")
  {
    assert multiset("4.33")['.'] == 1;
  }

  /** Three valid pieces, no two adjacent numbers. */
  lemma ValidThree(a: Piece, b: Piece, c: Piece)
    requires ValidPiece(a) && ValidPiece(b) && ValidPiece(c)
    requires !(a.NumberPiece? && b.NumberPiece?) && !(b.NumberPiece? && c.NumberPiece?)
    ensures ValidPieces([a, b, c])
  {
    var ps := [a, b, c];
    forall i: nat | i + 1 < |ps|
      ensures Separated(ps, i)
    {
    }
  }

  /** Joining valid piece sequences keeps them valid unless two numbers meet at the seam. */
  lemma ValidPiecesJoin(a: seq<Piece>, b: seq<Piece>)
    ensures ValidPieces(a) && ValidPieces(b) && (|a| > 0 && |b| > 0 ==> Separated(a + b, |a| - 1)) ==>
              ValidPieces(a + b)
  {
    if ValidPieces(a) && ValidPieces(b) && (|a| > 0 && |b| > 0 ==> Separated(a + b, |a| - 1)) {
      var ps := a + b;
      forall i: nat | i + 1 < |ps|
        ensures Separated(ps, i)
      {
        if i + 1 < |a| {
          assert Separated(a, i);
        } else if i >= |a| {
          assert Separated(b, i - |a|);
        }
      }
    }
  }

  /** Three pieces spell their three texts. */
  lemma UnlexThree(a: Piece, b: Piece, c: Piece)
    ensures Unlex([a, b, c]) == PieceText(a) + PieceText(b) + PieceText(c)
  {
    assert [a, b, c][1..] == [b, c];
    assert [b, c][1..] == [c];
    assert [c][1..] == [];
    assert Unlex([c]) == PieceText(c) + [] == PieceText(c);
    assert Unlex([b, c]) == PieceText(b) + PieceText(c);
  }

  /** Three pieces stand for their tokens in order. */
  lemma TokensOfThree(a: Piece, b: Piece, c: Piece)
    ensures TokensOf([a, b, c]) == TokensOf([a]) + TokensOf([b]) + TokensOf([c])
  {
    assert [a, b, c] == [a] + [b] + [c];
    TokensOfAppend([a] + [b], [c]);
    TokensOfAppend([a], [b]);
  }

  lemma ArithmeticPiecesText()
    ensures Unlex(ArithmeticPieces()) == "3 + 4.33 / 5"
  {
    UnlexAppend(ArithmeticHead + ArithmeticMiddle, ArithmeticLast);
    UnlexAppend(ArithmeticHead, ArithmeticMiddle);
    ArithmeticSegmentTexts();
    ArithmeticTextJoin();
  }

  /** The three segment texts laid end to end. */
  lemma ArithmeticTextJoin()
    ensures "3 +" + " 4.33 " + "/ 5" == "3 + 4.33 / 5"
  {
  }

  /** The texts of the three segments of the arithmetic example. */
  lemma ArithmeticSegmentTexts()
    ensures Unlex(ArithmeticHead) == "3 +"
    ensures Unlex(ArithmeticMiddle) == " 4.33 "
    ensures Unlex(ArithmeticLast) == "/ 5"
  {
    UnlexThree(NumberPiece("3"), BlankPiece(' '), OperatorPiece(Plus));
    UnlexThree(BlankPiece(' '), NumberPiece("4.33"), BlankPiece(' '));
    UnlexThree(OperatorPiece(Slash), BlankPiece(' '), NumberPiece("5"));
  }

  /** The tokens of a single piece. */
  lemma TokensOfOne(p: Piece)
    ensures p.NumberPiece? ==> TokensOf([p]) == [Number(LexemeValue(p.text))]
    ensures p.OperatorPiece? ==> TokensOf([p]) == [Operator(p.op)]
    ensures p.BlankPiece? ==> TokensOf([p]) == []
  {
    assert [p][1..] == [];
  }

  lemma ArithmeticPiecesTokens()
    ensures TokensOf(ArithmeticPieces()) == [Number(3.0), Operator(Plus), Number(4.33), Operator(Slash), Number(5.0)]
  {
    DigitLexemeValues();
    FractionalLexemeValue();
    TokensOfAppend(ArithmeticHead + ArithmeticMiddle, ArithmeticLast);
    TokensOfAppend(ArithmeticHead, ArithmeticMiddle);
    TokensOfThree(NumberPiece("3"), BlankPiece(' '), OperatorPiece(Plus));
    TokensOfThree(BlankPiece(' '), NumberPiece("4.33"), BlankPiece(' '));
    TokensOfThree(OperatorPiece(Slash), BlankPiece(' '), NumberPiece("5"));
    TokensOfOne(NumberPiece("3"));
    TokensOfOne(BlankPiece(' '));
    TokensOfOne(OperatorPiece(Plus));
    TokensOfOne(NumberPiece("4.33"));
    TokensOfOne(OperatorPiece(Slash));
    TokensOfOne(NumberPiece("5"));
  }

  /** The tokenizer's unit test: "3 + 4.33 / 5" gives 3, +, 4.33, /, 5. */
  lemma TokenizeArithmetic()
    ensures Tokenize(New("3 + 4.33 / 5"))
         == Run(Succeeded, Tokenizer([], [Number(3.0), Operator(Plus), Number(4.33), Operator(Slash), Number(5.0)]))
  {
    ArithmeticPiecesValid();
    ArithmeticPiecesText();
    ArithmeticPiecesTokens();
    TokenizeUnlex(ArithmeticPieces(), []);
  }

  /** The tokenizer's other unit test: a letter is an unexpected token, and nothing was pushed. */
  lemma TokenizeRejectsWords()
    ensures Tokenize(New("invalid source")) == Run(Failed(TokenizerError(UnexpectedToken)), New("invalid source"))
  {
    ScanWord();
    assert !IsEnd(New("invalid source"));
  }

  /** The step that fails on "invalid source": neither scanner accepts 'i', and neither consumes it. */
  lemma ScanWord()
    ensures ScanToken(New("invalid source")) == Run(Failed(TokenizerError(UnexpectedToken)), New("invalid source"))
  {
    var s := "invalid source";
    assert !IsDigit(s[0]) && !IsOperatorSymbol(s[0]) && !IsBlank(s[0]);
    assert ParseNumber(s) == Reject(NumberError, s);
    assert ParseOperator(s) == Reject(OperatorError, s);
  }

  /** A second '.' stops the run: "1.2" is consumed and the '.' after it is unexpected. */
  lemma TokenizeRejectsSecondDot()
    ensures Tokenize(New("1.2.3")) == Run(Failed(TokenizerError(UnexpectedToken)), Tokenizer(".3", []))
  {
    ScanSecondDot();
    assert !IsEnd(New("1.2.3"));
  }

  /** The step that fails on "1.2.3": the number scanner stops at the second '.', and the operator scanner rejects it. */
  lemma ScanSecondDot()
    ensures ScanToken(New("1.2.3")) == Run(Failed(TokenizerError(UnexpectedToken)), Tokenizer(".3", []))
  {
    ParseNumberSecondDot();
    assert ParseOperator(".3") == Reject(OperatorError, ".3");
    ScanBothReject(New("1.2.3"), ".3");
  }

  /** "1.2" is consumed, and the number scanner rejects the '.' that follows. */
  lemma ParseNumberSecondDot()
    ensures ParseNumber("1.2.3") == Reject(NumberError, ".3")
  {
    OneDotLexeme("1.2", 1);
    assert "1.2" + ['.'] + "3" == "1.2.3" && ['.'] + "3" == ".3";
    LexerProperties.ParseNumberRejectsSecondDot("1.2", "3");
  }

  /** When both scanners reject, the step fails where the number scanner stopped, pushing nothing. */
  lemma ScanBothReject(tz: Tokenizer, rest: seq<char>)
    ensures ParseNumber(tz.chars) == Reject(NumberError, rest) && ParseOperator(rest).Reject? ==>
              ScanToken(tz) == Run(Failed(TokenizerError(UnexpectedToken)), Tokenizer(rest, tz.tokens))
  {
  }

  /** An empty source tokenizes to nothing. */
  lemma TokenizeEmpty()
    ensures Tokenize(New("")) == Run(Succeeded, New(""))
  {
  }

  /** The number scanner alone on "3.20.49.9": it stops at the second '.', with an error. */
  lemma ParseNumberStopsAtSecondDot()
    ensures ParseNumber("3.20.49.9") == Reject(NumberError, ".49.9")
  {
    OneDotLexeme("3.20", 1);
    assert "3.20.49.9" == "3.20" + ['.'] + "49.9";
    LexerProperties.ParseNumberRejectsSecondDot("3.20", "49.9");
  }
}

=== FILE: lexer_properties.dfy ===
/**
  What the lexer as a whole recognises. An input is lexed successfully exactly
  when it can be cut into pieces (number lexemes, operator symbols, blanks)
  with no two number lexemes side by side; the tokens are then read off the
  pieces, blanks producing nothing.
 */
module LexerProperties {
  import opened Wrappers
  import opened Tokens
  import opened Lexer
  import opened Scanner

  // ---------------------------------------------------------------------------
  // Number lexemes: soundness, maximal munch, uniqueness

  /** Two distinct '.' positions mean more than one '.' in the multiset of characters. */
  lemma TwoDots(t: seq<char>, i: nat, j: nat)
    requires i < j
    ensures j < |t| && t[i] == '.' && t[j] == '.' ==> multiset(t)['.'] >= 2
  {
    if j < |t| && t[i] == '.' && t[j] == '.' {
      assert t == t[..j] + t[j..];
      assert t[..j][i] == '.';
      assert t[j..][0] == '.';
      assert multiset(t) == multiset(t[..j]) + multiset(t[j..]);
    }
  }

  /** Each character inside a number lexeme prefix is a digit or a '.'. */
  lemma LexemeCharAt(s: seq<char>, n: nat, k: nat)
    requires n <= |s| && IsNumberLexeme(s[..n]) && k < |s|
    ensures k < n ==> IsDigit(s[k]) || s[k] == '.'
  {
    if k < n {
      assert s[..n][k] == s[k];
    }
  }

  /** An all-digit sequence holds no '.'. */
  lemma NoDotInDigits(d: seq<char>)
    requires forall i :: 0 <= i < |d| ==> IsDigit(d[i])
    ensures multiset(d)['.'] == 0
  {
    assert '.' !in d;
  }

  /** The prefix `LexemeLength` measures is a number lexeme. */
  lemma {:induction false} LexemeLengthSound(s: seq<char>)
    requires LexemeLength(s) > 0
    ensures IsNumberLexeme(s[..LexemeLength(s)])
  {
    var n := LexemeLength(s);
    var i := DigitRun(s);
    NoDotInDigits(s[..i]);
    if i < |s| && s[i] == '.' {
      var j := DigitRun(s[i + 1..]);
      assert n == i + 1 + j;
      assert s[..n] == s[..i] + ['.'] + s[i + 1..][..j];
      NoDotInDigits(s[i + 1..][..j]);
      assert multiset(s[..n]) == multiset(s[..i]) + multiset{'.'} + multiset(s[i + 1..][..j]);
      forall k | 0 <= k < n
        ensures IsDigit(s[..n][k]) || s[..n][k] == '.'
      {
        if k > i {
          assert s[..n][k] == s[i + 1..][..j][k - i - 1];
        }
      }
    } else {
      assert n == i;
    }
  }

  /** Maximal munch: no longer prefix of `s` is a number lexeme. */
  lemma {:induction false} LexemeLengthMaximal(s: seq<char>, k: nat)
    requires LexemeLength(s) < k <= |s|
    ensures !IsNumberLexeme(s[..k])
  {
    var n := LexemeLength(s);
    if n == 0 {
      assert s[..k][0] == s[0];
    } else {
      var i := DigitRun(s);
      assert !IsDigit(s[n]) by {
        if i < |s| && s[i] == '.' {
          assert s[n] == s[i + 1..][n - i - 1];
        }
      }
      assert s[..k][n] == s[n];
      if s[n] == '.' {
        assert i < n && s[i] == '.';
        assert s[..k][i] == '.';
        TwoDots(s[..k], i, n);
      }
    }
  }

  /** A lexeme followed by neither a digit nor a '.' is exactly what `LexemeLength` measures. */
  lemma LexemeLengthOfLexeme(lex: seq<char>, rest: seq<char>)
    requires IsNumberLexeme(lex)
    requires rest == [] || (!IsDigit(rest[0]) && rest[0] != '.')
    ensures LexemeLength(lex + rest) == |lex|
  {
    var s := lex + rest;
    assert s[..|lex|] == lex;
    LexemePrefixBound(s, |lex|);
    var n := LexemeLength(s);
    LexemeLengthSound(s);
    if rest != [] {
      LexemeCharAt(s, n, |lex|);
      assert s[|lex|] == rest[0];
    }
  }

  /** Every number lexeme that is a prefix of `s` is at most `LexemeLength(s)` long. */
  lemma LexemePrefixBound(s: seq<char>, k: nat)
    requires k <= |s| && IsNumberLexeme(s[..k])
    ensures k <= LexemeLength(s)
  {
    if k > LexemeLength(s) {
      LexemeLengthMaximal(s, k);
    }
  }

  /** A number lexeme never spans two '.'. */
  lemma DotBarrier(s: seq<char>, i: nat, j: nat)
    requires i < j < |s| && s[i] == '.' && s[j] == '.'
    ensures LexemeLength(s) <= j
  {
    var n := LexemeLength(s);
    if n > 0 {
      LexemeLengthSound(s);
      TwoDotsInPrefix(s, n, i, j);
    }
  }

  /** A prefix reaching past two '.' holds more than one '.'. */
  lemma TwoDotsInPrefix(s: seq<char>, n: nat, i: nat, j: nat)
    requires n <= |s| && i < j < |s| && s[i] == '.' && s[j] == '.'
    ensures j < n ==> multiset(s[..n])['.'] >= 2
  {
    if j < n {
      assert s[..n][i] == '.' && s[..n][j] == '.';
      TwoDots(s[..n], i, j);
    }
  }

  /** `parse_number` on a lexeme followed by a non-number character takes exactly that lexeme. */
  lemma ParseNumberOfLexeme(lex: seq<char>, rest: seq<char>)
    requires IsNumberLexeme(lex)
    requires rest == [] || (!IsDigit(rest[0]) && rest[0] != '.')
    ensures ParseNumber(lex + rest) == Accept(Some(Number(LexemeValue(lex))), rest)
  {
    LexemeLengthOfLexeme(lex, rest);
    var s := lex + rest;
    assert s[..|lex|] == lex && s[|lex|..] == rest;
  }

  /**
    A lexeme that already holds a '.' and is followed by another '.' is
    rejected, with the cursor left on the second '.'.
   */
  lemma ParseNumberRejectsSecondDot(lex: seq<char>, rest: seq<char>)
    requires IsNumberLexeme(lex) && '.' in lex
    ensures ParseNumber(lex + ['.'] + rest) == Reject(NumberError, ['.'] + rest)
  {
    var s := lex + ['.'] + rest;
    DotSplit(lex, rest);
    LexemePrefixBound(s, |lex|);
    var i :| 0 <= i < |lex| && lex[i] == '.';
    DotBarrier(s, i, |lex|);
    RejectAtDot(s, |lex|);
  }

  lemma DotSplit(lex: seq<char>, rest: seq<char>)
    ensures var s := lex + ['.'] + rest;
            && s[..|lex|] == lex && s[|lex|] == '.' && s[|lex|..] == ['.'] + rest
            && forall i :: 0 <= i < |lex| ==> s[i] == lex[i]
  {
  }

  /** A non-empty lexeme followed by '.' is rejected, leaving the cursor on that '.'. */
  lemma RejectAtDot(s: seq<char>, n: nat)
    requires 0 < n == LexemeLength(s) < |s| && s[n] == '.'
    ensures ParseNumber(s) == Reject(NumberError, s[n..])
  {
  }

  /** What remains after an accepted number starts with neither a digit nor a '.'. */
  lemma ParseNumberStopsAtBoundary(chars: seq<char>)
    ensures var r := ParseNumber(chars);
            r.Accept? ==> |r.rest| < |chars| && (r.rest == [] || (!IsDigit(r.rest[0]) && r.rest[0] != '.'))
  {
    var n := LexemeLength(chars);
    if ParseNumber(chars).Accept? && n < |chars| {
      var i := DigitRun(chars);
      if i < |chars| && chars[i] == '.' {
        assert chars[n] == chars[i + 1..][n - i - 1];
      }
    }
  }

  // ---------------------------------------------------------------------------
  // Pieces

  /** One lexical piece of the input. */
  datatype Piece = NumberPiece(text: seq<char>) | OperatorPiece(op: Operator) | BlankPiece(blank: char)

  predicate ValidPiece(p: Piece)
  {
    match p
    case NumberPiece(text) => IsNumberLexeme(text)
    case OperatorPiece(_) => true
    case BlankPiece(c) => IsBlank(c)
  }

  /** The pieces at `i` and `i + 1` are not both numbers (they would merge). */
  predicate Separated(ps: seq<Piece>, i: nat)
    requires i + 1 < |ps|
  {
    !(ps[i].NumberPiece? && ps[i + 1].NumberPiece?)
  }

  /** Valid pieces, with no number directly followed by another number. */
  predicate ValidPieces(ps: seq<Piece>)
  {
    && (forall i :: 0 <= i < |ps| ==> ValidPiece(ps[i]))
    && (forall i: nat :: i + 1 < |ps| ==> Separated(ps, i))
  }

  function PieceText(p: Piece): string
  {
    match p
    case NumberPiece(text) => text
    case OperatorPiece(op) => OperatorText(op)
    case BlankPiece(c) => [c]
  }

  /** The characters the pieces spell. */
  function Unlex(ps: seq<Piece>): string
  {
    if |ps| == 0 then [] else PieceText(ps[0]) + Unlex(ps[1..])
  }

  /** The tokens the pieces stand for; blanks stand for none. */
  function TokensOf(ps: seq<Piece>): seq<Token>
  {
    if |ps| == 0 then []
    else
      match ps[0]
      case NumberPiece(text) => [Number(LexemeValue(text))] + TokensOf(ps[1..])
      case OperatorPiece(op) => [Operator(op)] + TokensOf(ps[1..])
      case BlankPiece(_) => TokensOf(ps[1..])
  }

  /** The text of pieces laid end to end is the texts laid end to end. */
  lemma {:induction false} UnlexAppend(a: seq<Piece>, b: seq<Piece>)
    ensures Unlex(a + b) == Unlex(a) + Unlex(b)
    decreases |a|
  {
    if |a| == 0 {
      assert a + b == b;
    } else {
      assert (a + b)[0] == a[0] && (a + b)[1..] == a[1..] + b;
      UnlexAppend(a[1..], b);
    }
  }

  /** The tokens of pieces laid end to end are the tokens laid end to end. */
  lemma {:induction false} TokensOfAppend(a: seq<Piece>, b: seq<Piece>)
    ensures TokensOf(a + b) == TokensOf(a) + TokensOf(b)
    decreases |a|
  {
    if |a| == 0 {
      assert a + b == b;
    } else {
      assert (a + b)[0] == a[0] && (a + b)[1..] == a[1..] + b;
      TokensOfAppend(a[1..], b);
      TokensOfHead(a + b);
      TokensOfHead(a);
    }
  }

  lemma ValidPiecesTail(ps: seq<Piece>)
    requires |ps| > 0 && ValidPieces(ps)
    ensures ValidPiece(ps[0]) && ValidPieces(ps[1..])
  {
    assert ValidPiece(ps[0]);
    forall i: nat | i + 1 < |ps[1..]|
      ensures Separated(ps[1..], i)
    {
      assert Separated(ps, i + 1);
    }
  }

  /** The text of valid pieces starts with the first piece's first character. */
  lemma UnlexHead(ps: seq<Piece>)
    requires |ps| > 0 && ValidPiece(ps[0])
    ensures |Unlex(ps)| > 0 && Unlex(ps)[0] == PieceText(ps[0])[0]
  {
  }

  /** A piece other than a number starts with neither a digit nor a '.'. */
  lemma NonNumberPieceStart(p: Piece)
    requires ValidPiece(p) && !p.NumberPiece?
    ensures |PieceText(p)| > 0 && !IsDigit(PieceText(p)[0]) && PieceText(p)[0] != '.'
  {
  }

  /** A step that succeeds is followed by the rest of the run. */
  lemma TokenizeUnfold(tz: Tokenizer)
    ensures ScanToken(tz).status.Succeeded? ==> Tokenize(tz) == Tokenize(ScanToken(tz).state)
  {
  }

  /** A scan step over a number lexeme pushes its value. */
  lemma ScanNumberPiece(lex: seq<char>, rest: seq<char>, prior: seq<Token>)
    requires IsNumberLexeme(lex)
    requires rest == [] || (!IsDigit(rest[0]) && rest[0] != '.')
    ensures ScanToken(Tokenizer(lex + rest, prior)) == Run(Succeeded, Tokenizer(rest, prior + [Number(LexemeValue(lex))]))
  {
    ParseNumberOfLexeme(lex, rest);
  }

  /** A scan step over an operator symbol pushes that operator. */
  lemma ScanOperatorPiece(op: Operator, rest: seq<char>, prior: seq<Token>)
    ensures ScanToken(Tokenizer(OperatorText(op) + rest, prior)) == Run(Succeeded, Tokenizer(rest, prior + [Operator(op)]))
  {
    ParseOperatorRoundTrip(op, rest);
    assert !IsDigit((OperatorText(op) + rest)[0]);
  }

  /** A scan step over a blank pushes nothing. */
  lemma ScanBlankPiece(c: char, rest: seq<char>, prior: seq<Token>)
    requires IsBlank(c)
    ensures ScanToken(Tokenizer([c] + rest, prior)) == Run(Succeeded, Tokenizer(rest, prior))
  {
    assert ([c] + rest)[1..] == rest;
  }

  /** A scan step over a number piece followed by other valid pieces takes exactly that number. */
  lemma ScanNumberBeforePieces(text: seq<char>, tail: seq<Piece>, prior: seq<Token>)
    requires IsNumberLexeme(text)
    requires ValidPieces(tail)
    requires |tail| > 0 ==> !tail[0].NumberPiece?
    ensures ScanToken(Tokenizer(text + Unlex(tail), prior))
         == Run(Succeeded, Tokenizer(Unlex(tail), prior + [Number(LexemeValue(text))]))
  {
    var rest := Unlex(tail);
    if |tail| > 0 {
      UnlexHead(tail);
      NonNumberPieceStart(tail[0]);
    }
    assert rest == [] || (!IsDigit(rest[0]) && rest[0] != '.');
    ScanNumberPiece(text, rest, prior);
  }

  /** A scan step over the text of a valid piece consumes exactly that piece and pushes its tokens. */
  lemma ScanPiece(p: Piece, tail: seq<Piece>, prior: seq<Token>)
    requires ValidPiece(p)
    requires ValidPieces(tail)
    requires p.NumberPiece? && |tail| > 0 ==> !tail[0].NumberPiece?
    ensures ScanToken(Tokenizer(PieceText(p) + Unlex(tail), prior))
         == Run(Succeeded, Tokenizer(Unlex(tail), prior + TokensOf([p])))
  {
    assert [p][1..] == [];
    if p.NumberPiece? {
      assert TokensOf([p]) == [Number(LexemeValue(p.text))];
      ScanNumberBeforePieces(p.text, tail, prior);
    } else if p.OperatorPiece? {
      assert TokensOf([p]) == [Operator(p.op)];
      ScanOperatorPiece(p.op, Unlex(tail), prior);
    } else {
      assert TokensOf([p]) == [];
      ScanBlankPiece(p.blank, Unlex(tail), prior);
      assert prior + [] == prior;
    }
  }

  /** The tokens of pieces are the first piece's tokens followed by the rest's. */
  lemma TokensOfHead(ps: seq<Piece>)
    requires |ps| > 0
    ensures TokensOf(ps) == TokensOf([ps[0]]) + TokensOf(ps[1..])
  {
    var head := TokensOf([ps[0]]);
    var tail := TokensOf(ps[1..]);
    assert [ps[0]][1..] == [];
    match ps[0]
    case NumberPiece(text) =>
      assert head == [Number(LexemeValue(text))];
    case OperatorPiece(op) =>
      assert head == [Operator(op)];
    case BlankPiece(_) =>
      assert head == [];
      assert head + tail == tail;
  }

  /**
    Regrouping a concatenation, as a separate fact: the tokenizer proofs
    below take it from here instead of re-deriving it in their own,
    much larger, proof contexts.
   */
  lemma AppendAssociative<T>(a: seq<T>, b: seq<T>, c: seq<T>)
    ensures a + b + c == a + (b + c)
  {
  }

  /** Tokenizing valid pieces starts by scanning exactly the first piece. */
  lemma TokenizeFirstPiece(ps: seq<Piece>, prior: seq<Token>)
    requires |ps| > 0 && ValidPieces(ps)
    ensures Tokenize(Tokenizer(Unlex(ps), prior)) == Tokenize(Tokenizer(Unlex(ps[1..]), prior + TokensOf([ps[0]])))
  {
    ValidPiecesTail(ps);
    if |ps| > 1 {
      assert Separated(ps, 0);
      assert ps[1..][0] == ps[1];
    }
    assert Unlex(ps) == PieceText(ps[0]) + Unlex(ps[1..]);
    ScanPiece(ps[0], ps[1..], prior);
    TokenizeUnfold(Tokenizer(Unlex(ps), prior));
  }

  /**
    Re-lexing: tokenizing the text of valid pieces succeeds, consumes every
    character and appends exactly the pieces' tokens.
   */
  lemma {:induction false} TokenizeUnlex(ps: seq<Piece>, prior: seq<Token>)
    requires ValidPieces(ps)
    ensures Tokenize(Tokenizer(Unlex(ps), prior)) == Run(Succeeded, Tokenizer([], prior + TokensOf(ps)))
    decreases |ps|
  {
    if |ps| == 0 {
      assert prior + [] == prior;
    } else {
      ValidPiecesTail(ps);
      TokenizeFirstPiece(ps, prior);
      TokenizeUnlex(ps[1..], prior + TokensOf([ps[0]]));
      TokensOfHead(ps);
      AppendAssociative(prior, TokensOf([ps[0]]), TokensOf(ps[1..]));
    }
  }

  /** A successful scan step consumed the text of one valid piece and pushed its tokens. */
  lemma FirstPiece(tz: Tokenizer) returns (p: Piece)
    requires ScanToken(tz).status.Succeeded?
    ensures ValidPiece(p)
    ensures tz.chars == PieceText(p) + ScanToken(tz).state.chars
    ensures ScanToken(tz).state.tokens == tz.tokens + TokensOf([p])
    ensures p.NumberPiece? ==>
              var rest := ScanToken(tz).state.chars;
              rest == [] || (!IsDigit(rest[0]) && rest[0] != '.')
  {
    ScanTokenEffect(tz);
    if IsDigit(tz.chars[0]) {
      p := FirstNumberPiece(tz);
    } else {
      p := FirstOtherPiece(tz);
    }
  }

  /** A successful scan step at a digit consumed one number lexeme. */
  lemma FirstNumberPiece(tz: Tokenizer) returns (p: Piece)
    requires ScanToken(tz).status.Succeeded? && IsDigit(tz.chars[0])
    ensures ValidPiece(p) && p.NumberPiece?
    ensures tz.chars == PieceText(p) + ScanToken(tz).state.chars
    ensures ScanToken(tz).state.tokens == tz.tokens + TokensOf([p])
    ensures var rest := ScanToken(tz).state.chars;
            rest == [] || (!IsDigit(rest[0]) && rest[0] != '.')
  {
    ScanDigitStep(tz);
    p := NumberPieceAt(tz.chars);
  }

  /** The number the scanner accepts at the head of `chars`, as a piece. */
  lemma NumberPieceAt(chars: seq<char>) returns (p: Piece)
    requires ParseNumber(chars).Accept?
    ensures ValidPiece(p) && p.NumberPiece?
    ensures chars == PieceText(p) + chars[LexemeLength(chars)..]
    ensures TokensOf([p]) == [Number(LexemeValue(chars[..LexemeLength(chars)]))]
    ensures var rest := chars[LexemeLength(chars)..];
            rest == [] || (!IsDigit(rest[0]) && rest[0] != '.')
  {
    var n := LexemeLength(chars);
    LexemeLengthSound(chars);
    AcceptedBoundary(chars);
    p := NumberPiece(chars[..n]);
    SingleNumberTokens(chars[..n]);
    NumberPieceText(chars, n);
  }

  lemma NumberPieceText(chars: seq<char>, n: nat)
    requires n <= |chars|
    ensures chars == PieceText(NumberPiece(chars[..n])) + chars[n..]
  {
    assert chars == chars[..n] + chars[n..];
  }

  lemma AcceptedBoundary(chars: seq<char>)
    requires ParseNumber(chars).Accept?
    ensures var rest := chars[LexemeLength(chars)..];
            rest == [] || (!IsDigit(rest[0]) && rest[0] != '.')
  {
    ParseNumberStopsAtBoundary(chars);
  }

  lemma SingleNumberTokens(text: string)
    ensures TokensOf([NumberPiece(text)]) == [Number(LexemeValue(text))]
  {
    assert [NumberPiece(text)][1..] == [];
  }

  /** A successful step on a digit is the number scanner's acceptance. */
  lemma ScanDigitStep(tz: Tokenizer)
    ensures ScanToken(tz).status.Succeeded? && |tz.chars| > 0 && IsDigit(tz.chars[0]) ==>
              && ParseNumber(tz.chars).Accept?
              && ScanToken(tz).state == Tokenizer(tz.chars[LexemeLength(tz.chars)..],
                                                  tz.tokens + [Number(LexemeValue(tz.chars[..LexemeLength(tz.chars)]))])
  {
    ScanTokenEffect(tz);
  }

  /** A successful scan step at a non-digit consumed one operator symbol or blank. */
  lemma FirstOtherPiece(tz: Tokenizer) returns (p: Piece)
    requires ScanToken(tz).status.Succeeded? && !IsDigit(tz.chars[0])
    ensures ValidPiece(p) && !p.NumberPiece?
    ensures tz.chars == PieceText(p) + ScanToken(tz).state.chars
    ensures ScanToken(tz).state.tokens == tz.tokens + TokensOf([p])
  {
    var c := tz.chars[0];
    assert IsOperatorSymbol(c) || IsBlank(c) by {
      ScanTokenEffect(tz);
    }
    assert ScanToken(tz).state.chars == tz.chars[1..] by {
      ScanTokenEffect(tz);
    }
    assert tz.chars == [c] + tz.chars[1..];
    if IsBlank(c) {
      assert ScanToken(tz).state.tokens == tz.tokens by {
        ScanTokenEffect(tz);
      }
      p := BlankPiece(c);
      assert [p][1..] == [];
      assert TokensOf([p]) == [];
      assert tz.tokens + [] == tz.tokens;
    } else {
      assert ScanToken(tz).state.tokens == tz.tokens + [Operator(OperatorOf(c))] by {
        ScanTokenEffect(tz);
      }
      p := OperatorPiece(OperatorOf(c));
      assert [p][1..] == [];
      assert TokensOf([p]) == [Operator(OperatorOf(c))];
    }
  }

  /** A valid piece in front of valid pieces it does not merge with. */
  lemma ConsPieces(p: Piece, tail: seq<Piece>)
    requires ValidPiece(p) && ValidPieces(tail)
    requires p.NumberPiece? && |tail| > 0 ==> !tail[0].NumberPiece?
    ensures ValidPieces([p] + tail)
    ensures Unlex([p] + tail) == PieceText(p) + Unlex(tail)
    ensures TokensOf([p] + tail) == TokensOf([p]) + TokensOf(tail)
  {
    var ps := [p] + tail;
    assert ps[0] == p && ps[1..] == tail;
    TokensOfHead(ps);
    forall i | 0 <= i < |ps|
      ensures ValidPiece(ps[i])
    {
      if i > 0 {
        assert ps[i] == tail[i - 1];
      }
    }
    forall i: nat | i + 1 < |ps|
      ensures Separated(ps, i)
    {
      if i > 0 {
        assert Separated(tail, i - 1);
      }
    }
  }

  /**
    Soundness: a successful run cut its input into valid pieces and pushed
    exactly their tokens.
   */
  lemma {:induction false} TokenizeSound(tz: Tokenizer) returns (ps: seq<Piece>)
    requires Tokenize(tz).status.Succeeded?
    ensures ValidPieces(ps)
    ensures Unlex(ps) == tz.chars
    ensures Tokenize(tz).state.tokens == tz.tokens + TokensOf(ps)
    decreases |tz.chars|
  {
    if IsEnd(tz) {
      ps := [];
      assert tz.tokens + [] == tz.tokens;
    } else {
      var step := ScanToken(tz);
      assert step.status.Succeeded?;
      TokenizeUnfold(tz);
      var p := FirstPiece(tz);
      var tail := TokenizeSound(step.state);
      if p.NumberPiece? && |tail| > 0 {
        ValidPiecesTail(tail);
        UnlexHead(tail);
      }
      ConsPieces(p, tail);
      AppendAssociative(tz.tokens, TokensOf([p]), TokensOf(tail));
      ps := [p] + tail;
    }
  }

  /** The input can be cut into valid pieces. */
  ghost predicate Lexable(s: string)
  {
    exists ps :: ValidPieces(ps) && Unlex(ps) == s
  }

  /** Tokenizing succeeds exactly on inputs that can be cut into valid pieces, and otherwise fails with "unexpected token". */
  lemma TokenizeSucceedsIffLexable(s: string)
    ensures Tokenize(New(s)).status.Succeeded? <==> Lexable(s)
    ensures !Tokenize(New(s)).status.Succeeded? ==> Tokenize(New(s)).status == Failed(TokenizerError(UnexpectedToken))
  {
    if Tokenize(New(s)).status.Succeeded? {
      var ps := TokenizeSound(New(s));
    }
    if Lexable(s) {
      var ps :| ValidPieces(ps) && Unlex(ps) == s;
      TokenizeUnlex(ps, []);
    }
  }
}

=== FILE: parser.dfy ===
/**
  The recursive-descent parser of src/ast/parser.rs, as written. The cursor
  is the sequence of remaining tokens; each production returns the tree it
  built together with the tokens it left, or the error that the source
  raises as a panic.

  `expression` parses a term and, if a "+" or "-" follows, a whole
  expression to its right; `term` parses a unary operand and, if a "*" or "/"
  follows, again a whole expression to its right. Chains therefore group to
  the right, and a "*" takes everything after it as its right operand.
 */
module Parser {
  import opened Wrappers
  import opened Syntax
  import opened Expressions

  /** The three panics of the parser. */
  datatype ParseError = EndOfInput | UnexpectedFromUnary | UnexpectedToken

  function Message(e: ParseError): string
  {
    match e
    case EndOfInput => "end of input"
    case UnexpectedFromUnary => "unexpected token from unary"
    case UnexpectedToken => "unexpected token"
  }

  /** A production's outcome: the tree and the tokens left, or an error. */
  datatype Parse = Parsed(expr: Expression, rest: seq<Token>) | Failed(error: ParseError)

  const Additive: seq<Token> := [Operator("+"), Operator("-")]
  const Multiplicative: seq<Token> := [Operator("*"), Operator("/")]

  /** The tokens a tree was read from, in order. */
  function Flatten(e: Expression): (ts: seq<Token>)
    ensures |ts| > 0
  {
    match e
    case Binary(l, op, r) => Flatten(l) + [op] + Flatten(r)
    case Unary(op, x) => [op] + Flatten(x)
    case Literal(t) => [t]
  }

  /** What `unary` builds: an integer literal, or a "-" applied to one. */
  predicate IsOperand(e: Expression)
  {
    || (e.Literal? && e.token.Integer?)
    || (e.Unary? && e.operator == Operator("-") && e.expr.Literal? && e.expr.token.Integer?)
  }

  /**
    What `expression` and `term` build: an operand, or a binary node whose
    left child is an operand and whose right child is again such a chain.
   */
  predicate IsChain(e: Expression)
  {
    || IsOperand(e)
    || (e.Binary? && IsOperand(e.left) && IsArithmetic(e.operator) && IsChain(e.right))
  }

  /** Tokens that cannot continue an expression: nothing, or a token other than the four operators. */
  predicate Ends(rest: seq<Token>)
  {
    rest == [] || !IsArithmetic(rest[0])
  }

  /** `literal`: one integer token, or "unexpected token" with nothing consumed. */
  function ParseLiteral(ts: seq<Token>): (r: Parse)
    ensures r.Parsed? <==> |ts| > 0 && ts[0].Integer?
    ensures r.Parsed? ==> r.expr == Literal(ts[0]) && r.rest == ts[1..]
    ensures r.Failed? ==> r.error == UnexpectedToken
  {
    var m := MatchToken([IntegerKind], ts);
    if m.token.Some? then Parsed(Literal(m.token.value), m.rest) else Failed(UnexpectedToken)
  }

  /**
    `unary`: a "-" and then a literal, or a literal; another operator is
    "unexpected token from unary" and an empty cursor "end of input".
   */
  function ParseUnary(ts: seq<Token>): (r: Parse)
    ensures |ts| == 0 ==> r == Failed(EndOfInput)
    ensures |ts| > 0 && ts[0].Operator? && ts[0] != Operator("-") ==> r == Failed(UnexpectedFromUnary)
    ensures |ts| > 0 && ts[0] == Operator("-") && (|ts| == 1 || !ts[1].Integer?) ==> r == Failed(UnexpectedToken)
    ensures r.Parsed? <==> (|ts| > 0 && ts[0].Integer?) || (|ts| > 1 && ts[0] == Operator("-") && ts[1].Integer?)
    ensures r.Parsed? ==> IsOperand(r.expr) && Flatten(r.expr) + r.rest == ts
  {
    match Peek(ts)
    case None => Failed(EndOfInput)
    case Some(token) =>
      match token
      case Operator(operator) =>
        if operator == "-" then
          var literal := ParseLiteral(ts[1..]);
          if literal.Failed? then literal
          else
            assert [token] + [literal.expr.token] + literal.rest == ts;
            Parsed(Unary(token, literal.expr), literal.rest)
        else
          Failed(UnexpectedFromUnary)
      case Integer(_) =>
        assert [ts[0]] + ts[1..] == ts;
        ParseLiteral(ts)
  }

  /** `term`: an operand, then optionally a "*" or "/" and a whole expression as the right operand. */
  function ParseTerm(ts: seq<Token>): (r: Parse)
    ensures r.Parsed? ==> IsChain(r.expr) && Flatten(r.expr) + r.rest == ts
    ensures r.Parsed? ==> r.rest == [] || r.rest[0] !in Multiplicative
    ensures r.Parsed? && r.expr.Binary? ==> r.expr.operator in Multiplicative && Ends(r.rest)
    ensures ParseUnary(ts).Failed? ==> r == ParseUnary(ts)
    decreases |ts|, 0
  {
    var left := ParseUnary(ts);
    if left.Failed? then left
    else
      var m := MatchConcreteToken(Multiplicative, left.rest);
      if m.token.Some? then
        var right := ParseExpression(m.rest);
        if right.Failed? then right
        else
          Assemble(left.expr, left.rest, right.expr, right.rest, ts);
          Parsed(Binary(left.expr, m.token.value, right.expr), right.rest)
      else
        left
  }

  /** `expression`: a term, then optionally a "+" or "-" and a whole expression as the right operand. */
  function ParseExpression(ts: seq<Token>): (r: Parse)
    ensures r.Parsed? ==> IsChain(r.expr) && Flatten(r.expr) + r.rest == ts && Ends(r.rest)
    ensures ParseUnary(ts).Failed? ==> r == ParseUnary(ts)
    decreases |ts|, 1
  {
    var left := ParseTerm(ts);
    if left.Failed? then left
    else
      var m := MatchConcreteToken(Additive, left.rest);
      if m.token.Some? then
        assert !left.expr.Binary?;
        var right := ParseExpression(m.rest);
        if right.Failed? then right
        else
          Assemble(left.expr, left.rest, right.expr, right.rest, ts);
          Parsed(Binary(left.expr, m.token.value, right.expr), right.rest)
      else
        left
  }

  /** `program`: the start symbol is an expression. */
  function ParseProgram(ts: seq<Token>): (r: Parse)
    ensures r.Parsed? ==> IsChain(r.expr) && Flatten(r.expr) + r.rest == ts && Ends(r.rest)
    ensures ParseUnary(ts).Failed? ==> r == ParseUnary(ts)
  {
    ParseExpression(ts)
  }

  /**
    Joining an operand, the operator after it and the chain read after that
    operator gives a chain read from the whole input.
   */
  lemma Assemble(l: Expression, mid: seq<Token>, r: Expression, rest: seq<Token>, ts: seq<Token>)
    requires IsOperand(l) && Flatten(l) + mid == ts
    requires |mid| > 0 && IsArithmetic(mid[0])
    requires IsChain(r) && Flatten(r) + rest == mid[1..]
    ensures IsChain(Binary(l, mid[0], r))
    ensures Flatten(Binary(l, mid[0], r)) + rest == ts
  {
    FlattenRegroup(l, mid, r, rest);
  }

  lemma FlattenRegroup(l: Expression, mid: seq<Token>, r: Expression, rest: seq<Token>)
    requires |mid| > 0 && Flatten(r) + rest == mid[1..]
    ensures Flatten(Binary(l, mid[0], r)) + rest == Flatten(l) + mid
  {
    var op := mid[0];
    assert Flatten(Binary(l, op, r)) == Flatten(l) + [op] + Flatten(r);
    assert mid == [op] + (Flatten(r) + rest);
  }
}

=== FILE: parser_examples.dfy ===
/**
  Worked token sequences for the parser as written and for the left-grouping
  parser of the grammar, with the values the trees evaluate to.
 */
module ParserExamples {
  import opened Wrappers
  import opened Syntax
  import opened Expressions
  import Parser
  import ParserProperties
  import PrecedenceParser

  function Num(n: int): Expression
  {
    Literal(Integer(n))
  }

  /** The tokens of a right-grouped tree of three literals. */
  lemma FlattenRightGrouped(a: int, op1: Token, b: int, op2: Token, c: int)
    ensures Parser.Flatten(Binary(Num(a), op1, Binary(Num(b), op2, Num(c)))) + []
         == [Integer(a), op1, Integer(b), op2, Integer(c)]
  {
    assert Parser.Flatten(Binary(Num(b), op2, Num(c))) == [Integer(b), op2, Integer(c)];
  }

  /** The tokens of a left-grouped tree of three literals. */
  lemma FlattenLeftGrouped(a: int, op1: Token, b: int, op2: Token, c: int)
    ensures Parser.Flatten(Binary(Binary(Num(a), op1, Num(b)), op2, Num(c))) + []
         == [Integer(a), op1, Integer(b), op2, Integer(c)]
  {
    assert Parser.Flatten(Binary(Num(a), op1, Num(b))) == [Integer(a), op1, Integer(b)];
  }

  const Plus: Token := Operator("+")
  const Minus: Token := Operator("-")
  const Star: Token := Operator("*")

  /** The tree the code builds for "2 * 3 + 4" evaluates to 14. */
  lemma AsWrittenProductSwallowsSumValue()
    ensures Eval(Binary(Num(2), Star, Binary(Num(3), Plus, Num(4)))) == Ok(14)
  {
  }

  /**
    The as-written tree for "2 * 3 + 4" is rooted at "*" yet holds a "+"
    node: exactly what a product may not do under the documented grammar.
   */
  lemma AsWrittenProductContainsSum()
    ensures var r := Parser.ParseProgram([Integer(2), Star, Integer(3), Plus, Integer(4)]);
            r.Parsed? && r.expr.Binary? && r.expr.operator in Parser.Multiplicative && PrecedenceParser.HasAdditive(r.expr)
            && !PrecedenceParser.IsProduct(r.expr)
  {
    AsWrittenProductSwallowsSum();
    var e := Binary(Num(2), Star, Binary(Num(3), Plus, Num(4)));
    assert PrecedenceParser.HasAdditive(e.right);
    if PrecedenceParser.IsProduct(e) {
      PrecedenceParser.ProductHasNoSum(e);
    }
  }

  /** As written, "2 * 3 + 4" parses as 2 * (3 + 4): the product takes the whole sum as its right operand. */
  lemma AsWrittenProductSwallowsSum()
    ensures Parser.ParseProgram([Integer(2), Star, Integer(3), Plus, Integer(4)])
         == Parser.Parsed(Binary(Num(2), Star, Binary(Num(3), Plus, Num(4))), [])
  {
    var e := Binary(Num(2), Star, Binary(Num(3), Plus, Num(4)));
    FlattenRightGrouped(2, Star, 3, Plus, 4);
    ParserProperties.ParseRoundTrip(e, []);
  }

  /** The tree the grammar calls for on "2 * 3 + 4" evaluates to 10. */
  lemma PrecedenceProductBeforeSumValue()
    ensures Eval(Binary(Binary(Num(2), Star, Num(3)), Plus, Num(4))) == Ok(10)
  {
  }

  /** Following the grammar, "2 * 3 + 4" parses as (2 * 3) + 4. */
  lemma PrecedenceProductBeforeSum()
    ensures PrecedenceParser.ParseExpression([Integer(2), Star, Integer(3), Plus, Integer(4)])
         == Parser.Parsed(Binary(Binary(Num(2), Star, Num(3)), Plus, Num(4)), [])
  {
    var e := Binary(Binary(Num(2), Star, Num(3)), Plus, Num(4));
    FlattenLeftGrouped(2, Star, 3, Plus, 4);
    PrecedenceParser.ParseRoundTrip(e, []);
  }

  /** The tree the code builds for "10 - 2 - 3" evaluates to 11. */
  lemma AsWrittenSubtractionGroupsRightValue()
    ensures Eval(Binary(Num(10), Minus, Binary(Num(2), Minus, Num(3)))) == Ok(11)
  {
  }

  /** As written, "10 - 2 - 3" parses as 10 - (2 - 3). */
  lemma AsWrittenSubtractionGroupsRight()
    ensures Parser.ParseProgram([Integer(10), Minus, Integer(2), Minus, Integer(3)])
         == Parser.Parsed(Binary(Num(10), Minus, Binary(Num(2), Minus, Num(3))), [])
  {
    var e := Binary(Num(10), Minus, Binary(Num(2), Minus, Num(3)));
    FlattenRightGrouped(10, Minus, 2, Minus, 3);
    ParserProperties.ParseRoundTrip(e, []);
  }

  /** The tree the grammar calls for on "10 - 2 - 3" evaluates to 5. */
  lemma PrecedenceSubtractionGroupsLeftValue()
    ensures Eval(Binary(Binary(Num(10), Minus, Num(2)), Minus, Num(3))) == Ok(5)
  {
  }

  /** Following the grammar, "10 - 2 - 3" parses as (10 - 2) - 3. */
  lemma PrecedenceSubtractionGroupsLeft()
    ensures PrecedenceParser.ParseExpression([Integer(10), Minus, Integer(2), Minus, Integer(3)])
         == Parser.Parsed(Binary(Binary(Num(10), Minus, Num(2)), Minus, Num(3)), [])
  {
    var e := Binary(Binary(Num(10), Minus, Num(2)), Minus, Num(3));
    FlattenLeftGrouped(10, Minus, 2, Minus, 3);
    PrecedenceParser.ParseRoundTrip(e, []);
  }

  /** A unary minus binds tighter than "*": "-3 * 4" is (-3) * 4. */
  lemma NegationBindsTightest()
    ensures Parser.ParseProgram([Minus, Integer(3), Star, Integer(4)])
         == Parser.Parsed(Binary(Unary(Minus, Num(3)), Star, Num(4)), [])
  {
    var e := Binary(Unary(Minus, Num(3)), Star, Num(4));
    assert Parser.Flatten(e) + [] == [Minus, Integer(3), Star, Integer(4)];
    ParserProperties.ParseRoundTrip(e, []);
  }

  /** Tokens after a complete expression are left unread: "1 + 2 3" gives 1 + 2 and leaves 3. */
  lemma TrailingTokensLeft()
    ensures Parser.ParseProgram([Integer(1), Plus, Integer(2), Integer(3)])
         == Parser.Parsed(Binary(Num(1), Plus, Num(2)), [Integer(3)])
  {
    var e := Binary(Num(1), Plus, Num(2));
    assert Parser.Flatten(e) + [Integer(3)] == [Integer(1), Plus, Integer(2), Integer(3)];
    ParserProperties.ParseRoundTrip(e, [Integer(3)]);
  }

  /** No tokens at all: `unary` reaches the end of input. */
  lemma EmptyInputFails()
    ensures Parser.ParseProgram([]) == Parser.Failed(Parser.EndOfInput)
    ensures Parser.Message(Parser.EndOfInput) == "end of input"
  {
  }

  /** An expression cut short after its operator: "1 +" ends the input inside `unary`. */
  lemma IncompleteExpressionFails()
    ensures Parser.ParseProgram([Integer(1), Plus]) == Parser.Failed(Parser.EndOfInput)
    ensures Parser.Message(Parser.EndOfInput) == "end of input"
  {
    var ts := [Integer(1), Plus];
    assert Parser.ParseUnary(ts) == Parser.Parsed(Num(1), [Plus]);
    assert Parser.ParseTerm(ts) == Parser.Parsed(Num(1), [Plus]);
    assert Parser.ParseUnary([]) == Parser.Failed(Parser.EndOfInput);
  }

  /** An operand may not start with "+": "+ 3" fails in `unary`. */
  lemma LeadingPlusFails()
    ensures Parser.ParseProgram([Plus, Integer(3)]) == Parser.Failed(Parser.UnexpectedFromUnary)
    ensures Parser.Message(Parser.UnexpectedFromUnary) == "unexpected token from unary"
  {
    assert Parser.ParseUnary([Plus, Integer(3)]) == Parser.Failed(Parser.UnexpectedFromUnary);
  }

  /** A "-" must be followed by a literal: "- - 3" fails in `literal`. */
  lemma DoubleNegationFails()
    ensures Parser.ParseProgram([Minus, Minus, Integer(3)]) == Parser.Failed(Parser.UnexpectedToken)
    ensures Parser.Message(Parser.UnexpectedToken) == "unexpected token"
  {
    assert Parser.ParseUnary([Minus, Minus, Integer(3)]) == Parser.Failed(Parser.UnexpectedToken);
  }

  /** Dividing by a divisor that evaluates to zero fails: "1 / (2 - 2)" as written. */
  lemma DivisionByZeroFails()
    ensures Eval(Binary(Num(1), Operator("/"), Binary(Num(2), Minus, Num(2)))) == Err(DivisionByZero)
  {
  }
}

=== FILE: parser_properties.dfy ===
/**
  What the parser as written accepts and builds: exactly the right-grouped
  chains of operands, read back from their own tokens.
 */
module ParserProperties {
  import opened Syntax
  import opened Expressions
  import opened Parser

  /** Every chain is a tree `eval` accepts. */
  lemma {:induction false} ChainWellFormed(e: Expression)
    requires IsChain(e)
    ensures WellFormed(e)
  {
    if !IsOperand(e) {
      ChainWellFormed(e.right);
    }
  }

  /** A parse result can always be evaluated without reaching `unreachable!`. */
  lemma ParseProgramWellFormed(ts: seq<Token>)
    requires ParseProgram(ts).Parsed?
    ensures WellFormed(ParseProgram(ts).expr)
  {
    ChainWellFormed(ParseProgram(ts).expr);
  }

  /** The rendering of every parse result is balanced: one '(' and one ')' per compound node. */
  lemma ParseRenderBalanced(ts: seq<Token>)
    requires ParseProgram(ts).Parsed?
    ensures multiset(Render(ParseProgram(ts).expr))['('] == Nodes(ParseProgram(ts).expr)
    ensures multiset(Render(ParseProgram(ts).expr))[')'] == Nodes(ParseProgram(ts).expr)
  {
    ParseProgramWellFormed(ts);
    WellFormedParenFree(ParseProgram(ts).expr);
    RenderBalanced(ParseProgram(ts).expr);
  }

  /** `unary` reads an operand back from its own tokens, whatever follows. */
  lemma ParseUnaryOperand(u: Expression, tail: seq<Token>)
    requires IsOperand(u)
    ensures ParseUnary(Flatten(u) + tail) == Parsed(u, tail)
  {
    var ts := Flatten(u) + tail;
    if u.Unary? {
      assert ts[0] == Operator("-") && ts[1] == u.expr.token && ts[2..] == tail;
    } else {
      assert ts[0] == u.token && ts[1..] == tail;
    }
  }

  /** The tokens of a binary node, split after its left operand. */
  lemma FlattenSplit(l: Expression, op: Token, r: Expression, rest: seq<Token>)
    ensures Flatten(Binary(l, op, r)) + rest == Flatten(l) + ([op] + (Flatten(r) + rest))
    ensures ([op] + (Flatten(r) + rest))[0] == op
    ensures ([op] + (Flatten(r) + rest))[1..] == Flatten(r) + rest
  {
    var fl, fr := Flatten(l), Flatten(r);
    assert Flatten(Binary(l, op, r)) == fl + [op] + fr;
    SeqRegroup(fl, [op], fr, rest);
  }

  lemma SeqRegroup<T>(a: seq<T>, b: seq<T>, c: seq<T>, d: seq<T>)
    ensures a + b + c + d == a + (b + (c + d))
  {
  }

  /** `term` on an operand followed by a non-multiplicative token stops after the operand. */
  lemma ParseTermOperand(u: Expression, tail: seq<Token>)
    requires IsOperand(u)
    requires tail == [] || tail[0] !in Multiplicative
    ensures ParseTerm(Flatten(u) + tail) == Parsed(u, tail)
  {
    ParseUnaryOperand(u, tail);
  }

  /**
    Round trip: parsing the tokens of a chain, followed by tokens that cannot
    continue it, gives the chain back and leaves those tokens.
   */
  lemma {:induction false} ParseRoundTrip(e: Expression, rest: seq<Token>)
    requires IsChain(e) && Ends(rest)
    ensures ParseExpression(Flatten(e) + rest) == Parsed(e, rest)
  {
    if IsOperand(e) {
      ParseTermOperand(e, rest);
    } else {
      var l, op, r := e.left, e.operator, e.right;
      ParseRoundTrip(r, rest);
      if op in Multiplicative {
        RoundTripMultiplicative(l, op, r, rest);
      } else {
        RoundTripAdditive(l, op, r, rest);
      }
    }
  }

  /** The step of the round trip at a "*" or "/" node: `term` takes the whole right chain. */
  lemma RoundTripMultiplicative(l: Expression, op: Token, r: Expression, rest: seq<Token>)
    requires IsOperand(l) && op in Multiplicative && IsChain(r) && Ends(rest)
    requires ParseExpression(Flatten(r) + rest) == Parsed(r, rest)
    ensures ParseExpression(Flatten(Binary(l, op, r)) + rest) == Parsed(Binary(l, op, r), rest)
  {
    FlattenSplit(l, op, r, rest);
    ParseUnaryOperand(l, [op] + (Flatten(r) + rest));
    assert ParseTerm(Flatten(Binary(l, op, r)) + rest) == Parsed(Binary(l, op, r), rest);
  }

  /** The step of the round trip at a "+" or "-" node: `term` stops at the operator and `expression` takes the right chain. */
  lemma RoundTripAdditive(l: Expression, op: Token, r: Expression, rest: seq<Token>)
    requires IsOperand(l) && op in Additive && IsChain(r) && Ends(rest)
    requires ParseExpression(Flatten(r) + rest) == Parsed(r, rest)
    ensures ParseExpression(Flatten(Binary(l, op, r)) + rest) == Parsed(Binary(l, op, r), rest)
  {
    var tail := [op] + (Flatten(r) + rest);
    FlattenSplit(l, op, r, rest);
    ParseTermOperand(l, tail);
  }

  /**
    After an operand and a "*" or "/", `term` hands the rest to `expression`,
    and a failure there is the term's failure, unchanged.
   */
  lemma TermLaterOperandFails(u: Expression, op: Token, ts: seq<Token>)
    requires IsOperand(u) && op in Multiplicative && ParseExpression(ts).Failed?
    ensures ParseTerm(Flatten(u) + [op] + ts) == ParseExpression(ts)
  {
    OperatorThenRest(u, op, ts);
    ParseUnaryOperand(u, [op] + ts);
  }

  /**
    A failure in a later operand passes straight up: after an operand and
    any of the four operators, the whole expression fails with the error of
    the expression that follows the operator.
   */
  lemma ExpressionLaterOperandFails(u: Expression, op: Token, ts: seq<Token>)
    requires IsOperand(u) && IsArithmetic(op) && ParseExpression(ts).Failed?
    ensures ParseExpression(Flatten(u) + [op] + ts) == ParseExpression(ts)
  {
    if op in Multiplicative {
      TermLaterOperandFails(u, op, ts);
    } else {
      AdditiveLaterOperandFails(u, op, ts);
    }
  }

  lemma AdditiveLaterOperandFails(u: Expression, op: Token, ts: seq<Token>)
    requires IsOperand(u) && op in Additive && ParseExpression(ts).Failed?
    ensures ParseExpression(Flatten(u) + [op] + ts) == ParseExpression(ts)
  {
    OperatorThenRest(u, op, ts);
    ParseTermOperand(u, [op] + ts);
  }

  /** The tokens after an operand, split at the operator that follows it. */
  lemma OperatorThenRest(u: Expression, op: Token, ts: seq<Token>)
    ensures Flatten(u) + [op] + ts == Flatten(u) + ([op] + ts)
    ensures ([op] + ts)[0] == op && ([op] + ts)[1..] == ts
  {
  }

  /**
    Every failure of the parser is the failure of some operand: either the
    first one, or, after an operand and an operator, the failure of the rest.
   */
  lemma ParseFailureLocated(ts: seq<Token>)
    requires ParseProgram(ts).Failed?
    ensures || ParseUnary(ts).Failed?
            || exists u, op, tail :: IsOperand(u) && IsArithmetic(op) && ts == Flatten(u) + [op] + tail
                                      && ParseExpression(tail).Failed? && ParseProgram(ts) == ParseExpression(tail)
  {
    var left := ParseUnary(ts);
    if left.Parsed? {
      var u := left.expr;
      if left.rest != [] && IsArithmetic(left.rest[0]) {
        var op, tail := left.rest[0], left.rest[1..];
        assert left.rest == [op] + tail;
        OperatorThenRest(u, op, tail);
        if ParseExpression(tail).Parsed? {
          LaterOperandParses(u, op, tail);
          assert false;
        }
        ExpressionLaterOperandFails(u, op, tail);
      } else {
        ParseRoundTrip(u, left.rest);
        assert false;
      }
    }
  }

  /** An operand, an operator and a parsable rest parse as a whole. */
  lemma LaterOperandParses(u: Expression, op: Token, tail: seq<Token>)
    requires IsOperand(u) && IsArithmetic(op) && ParseExpression(tail).Parsed?
    ensures ParseExpression(Flatten(u) + [op] + tail).Parsed?
  {
    var r, rest := ParseExpression(tail).expr, ParseExpression(tail).rest;
    assert IsChain(Binary(u, op, r));
    FlattenSplit(u, op, r, rest);
    OperatorThenRest(u, op, tail);
    ParseRoundTrip(Binary(u, op, r), rest);
  }

  /** The token sequences the parser accepts: a chain, then tokens that cannot continue it. */
  ghost predicate Parsable(ts: seq<Token>)
  {
    exists e, rest :: IsChain(e) && Ends(rest) && ts == Flatten(e) + rest
  }

  /** The parser succeeds exactly on the parsable token sequences. */
  lemma ParseSucceedsIffParsable(ts: seq<Token>)
    ensures ParseProgram(ts).Parsed? <==> Parsable(ts)
  {
    if Parsable(ts) {
      var e, rest :| IsChain(e) && Ends(rest) && ts == Flatten(e) + rest;
      ParseRoundTrip(e, rest);
    }
  }

  /**
    The parse is unambiguous: a token sequence is the tokens of at most one
    chain followed by an ending.
   */
  lemma ChainsUnambiguous(e1: Expression, rest1: seq<Token>, e2: Expression, rest2: seq<Token>)
    requires IsChain(e1) && Ends(rest1) && IsChain(e2) && Ends(rest2)
    requires Flatten(e1) + rest1 == Flatten(e2) + rest2
    ensures e1 == e2 && rest1 == rest2
  {
    ParseRoundTrip(e1, rest1);
    ParseRoundTrip(e2, rest2);
  }
}

=== FILE: precedence_parser.dfy ===
/**
  The parser the grammar in the doc comments of src/ast/parser.rs describes:
  `Expression -> Term (("+" | "-") Term)*` and
  `Term -> Unary (("*" | "/") Unary)*`, with each repetition folded to the
  left. It reuses `unary`, `literal` and the token matchers unchanged; only
  the two looping productions differ from the code as written.
 */
module PrecedenceParser {
  import opened Wrappers
  import opened Syntax
  import opened Expressions
  import opened Parser
  import ParserProperties

  /** A product: operands joined by "*" and "/", grouped to the left. */
  predicate IsProduct(e: Expression)
  {
    || IsOperand(e)
    || (e.Binary? && e.operator in Multiplicative && IsProduct(e.left) && IsOperand(e.right))
  }

  /** A sum: products joined by "+" and "-", grouped to the left. */
  predicate IsSum(e: Expression)
  {
    || IsProduct(e)
    || (e.Binary? && e.operator in Additive && IsSum(e.left) && IsProduct(e.right))
  }

  /** The `(("*" | "/") Unary)*` loop, with the product read so far in `acc`. */
  function TermTail(acc: Expression, ts: seq<Token>): (r: Parse)
    requires IsProduct(acc)
    ensures r.Parsed? ==> IsProduct(r.expr) && Flatten(r.expr) + r.rest == Flatten(acc) + ts
    ensures r.Parsed? ==> r.rest == [] || r.rest[0] !in Multiplicative
    decreases |ts|
  {
    var m := MatchConcreteToken(Multiplicative, ts);
    if m.token.None? then Parsed(acc, ts)
    else
      var right := ParseUnary(m.rest);
      if right.Failed? then right
      else
        ExtendLeft(acc, ts, right.expr, right.rest);
        TermTail(Binary(acc, m.token.value, right.expr), right.rest)
  }

  /** `term`: an operand, then the multiplicative loop. */
  function ParseTerm(ts: seq<Token>): (r: Parse)
    ensures r.Parsed? ==> IsProduct(r.expr) && Flatten(r.expr) + r.rest == ts
    ensures r.Parsed? ==> r.rest == [] || r.rest[0] !in Multiplicative
  {
    var left := ParseUnary(ts);
    if left.Failed? then left else TermTail(left.expr, left.rest)
  }

  /** The `(("+" | "-") Term)*` loop, with the sum read so far in `acc`. */
  function ExpressionTail(acc: Expression, ts: seq<Token>): (r: Parse)
    requires IsSum(acc)
    requires ts == [] || ts[0] !in Multiplicative
    ensures r.Parsed? ==> IsSum(r.expr) && Flatten(r.expr) + r.rest == Flatten(acc) + ts && Ends(r.rest)
    decreases |ts|
  {
    var m := MatchConcreteToken(Additive, ts);
    if m.token.None? then Parsed(acc, ts)
    else
      var right := ParseTerm(m.rest);
      if right.Failed? then right
      else
        ExtendLeft(acc, ts, right.expr, right.rest);
        ExpressionTail(Binary(acc, m.token.value, right.expr), right.rest)
  }

  /** `expression`: a term, then the additive loop. */
  function ParseExpression(ts: seq<Token>): (r: Parse)
    ensures r.Parsed? ==> IsSum(r.expr) && Flatten(r.expr) + r.rest == ts && Ends(r.rest)
  {
    var left := ParseTerm(ts);
    if left.Failed? then left else ExpressionTail(left.expr, left.rest)
  }

  /** Hanging a new right operand under the tree read so far keeps the tokens in order. */
  lemma ExtendLeft(acc: Expression, ts: seq<Token>, right: Expression, rest: seq<Token>)
    requires |ts| > 0 && Flatten(right) + rest == ts[1..]
    ensures Flatten(Binary(acc, ts[0], right)) + rest == Flatten(acc) + ts
  {
    var op := ts[0];
    assert Flatten(Binary(acc, op, right)) == Flatten(acc) + [op] + Flatten(right);
    assert ts == [op] + (Flatten(right) + rest);
  }

  // ---------------------------------------------------------------------------
  // Round trip

  /** The multiplicative loop reads a whole product back, whatever tokens follow it. */
  lemma {:induction false} TermRoundTrip(e: Expression, tail: seq<Token>)
    requires IsProduct(e)
    ensures ParseTerm(Flatten(e) + tail) == TermTail(e, tail)
  {
    if IsOperand(e) {
      ParserProperties.ParseUnaryOperand(e, tail);
    } else {
      var l, op, u := e.left, e.operator, e.right;
      var tail' := [op] + (Flatten(u) + tail);
      ParserProperties.FlattenSplit(l, op, u, tail);
      TermRoundTrip(l, tail');
      ParserProperties.ParseUnaryOperand(u, tail);
    }
  }

  /** The additive loop reads a whole sum back, when what follows does not start with "*" or "/". */
  lemma {:induction false} ExpressionRoundTrip(e: Expression, tail: seq<Token>)
    requires IsSum(e)
    requires tail == [] || tail[0] !in Multiplicative
    ensures ParseExpression(Flatten(e) + tail) == ExpressionTail(e, tail)
  {
    if IsProduct(e) {
      TermRoundTrip(e, tail);
      TermTailStops(e, tail);
    } else {
      var l, op, t := e.left, e.operator, e.right;
      var tail' := [op] + (Flatten(t) + tail);
      ParserProperties.FlattenSplit(l, op, t, tail);
      ExpressionRoundTrip(l, tail');
      TermRoundTrip(t, tail);
      TermTailStops(t, tail);
    }
  }

  /** The multiplicative loop stops at once before a token other than "*" and "/". */
  lemma TermTailStops(acc: Expression, ts: seq<Token>)
    requires IsProduct(acc)
    requires ts == [] || ts[0] !in Multiplicative
    ensures TermTail(acc, ts) == Parsed(acc, ts)
  {
  }

  /**
    Round trip: parsing the tokens of a left-grouped sum of products,
    followed by tokens that cannot continue it, gives that tree back.
   */
  lemma ParseRoundTrip(e: Expression, rest: seq<Token>)
    requires IsSum(e) && Ends(rest)
    ensures ParseExpression(Flatten(e) + rest) == Parsed(e, rest)
  {
    ExpressionRoundTrip(e, rest);
  }

  /** An operand is a literal or a negated literal, with no binary node at all. */
  lemma OperandHasNoSum(u: Expression)
    requires IsOperand(u)
    ensures !HasAdditive(u)
  {
    if u.Unary? {
      assert !HasAdditive(u.expr);
    }
  }

  /** Some binary node anywhere in the tree is a "+" or a "-". */
  predicate HasAdditive(e: Expression)
  {
    match e
    case Binary(l, op, r) => op in Additive || HasAdditive(l) || HasAdditive(r)
    case Unary(_, x) => HasAdditive(x)
    case Literal(_) => false
  }

  /**
    Precedence: a product is rooted at a "*" or "/" when it is binary, and
    no "+" or "-" node sits anywhere inside it.
   */
  lemma {:induction false} ProductHasNoSum(e: Expression)
    requires IsProduct(e)
    ensures e.Binary? ==> e.operator in Multiplicative
    ensures !HasAdditive(e)
  {
    if e.Binary? {
      ProductHasNoSum(e.left);
      OperandHasNoSum(e.right);
    }
  }
}

=== FILE: scanner.dfy ===
/**
  The tokenizer loop (src/tokenizer/parser.rs): a character cursor and the
  tokens produced so far; each step tries the number scanner, then the
  operator scanner, on the shared cursor.
 */
module Scanner {
  import opened Wrappers
  import opened Tokens
  import opened Lexer

  /** The tokenizer's error: a fixed message, displayed with a category prefix. */
  datatype TokenizerError = TokenizerError(message: string)

  const UnexpectedToken: string := "unexpected token"

  const ErrorPrefix: string := "[TOKENIZER ERROR]: "

  /** `Display` of a tokenizer error: a fixed-length category prefix, then the message. */
  function ErrorText(e: TokenizerError): (s: string)
    ensures |s| == |ErrorPrefix| + |e.message|
    ensures s[|ErrorPrefix|..] == e.message
  {
    ErrorPrefix + e.message
  }

  /** The display keeps the message recoverable: distinct errors display differently. */
  lemma ErrorTextInjective(a: TokenizerError, b: TokenizerError)
    ensures ErrorText(a) == ErrorText(b) ==> a == b
  {
  }

  /** The `Tokenizer` struct: the remaining characters and the tokens pushed so far. */
  datatype Tokenizer = Tokenizer(chars: seq<char>, tokens: seq<Token>)

  /**
    How a step or a run ended: `Ok(())`, `Err(e)`, or a panic raised inside a
    scanner (only `parse_number` on an empty cursor panics).
   */
  datatype Status = Succeeded | Failed(error: TokenizerError) | Panicked(message: string)

  datatype Run = Run(status: Status, state: Tokenizer)

  /** `Tokenizer::new`: no tokens yet, the whole source still to read. */
  function New(source: string): (tz: Tokenizer)
    ensures tz.tokens == [] && tz.chars == source
    ensures IsEnd(tz) <==> source == []
  {
    Tokenizer(source, [])
  }

  /** `is_end`: no characters remain. */
  function IsEnd(tz: Tokenizer): (end: bool)
    ensures end <==> Peek(tz.chars).None?
  {
    |tz.chars| == 0
  }

  /** `tokens.push(token)` when a scanner returned `Some(token)`. */
  function Push(tokens: seq<Token>, t: Option<Token>): seq<Token>
  {
    if t.Some? then tokens + [t.value] else tokens
  }

  /**
    `scan_token`: number first, then operator; the first scanner that returns
    `Ok` wins. A successful step consumes at least one character and pushes at
    most one token; a failed one pushes nothing and stops on a character that
    neither scanner accepts. Which token is pushed is stated by
    `ScanTokenEffect`.
   */
  function ScanToken(tz: Tokenizer): (r: Run)
    ensures r.status.Panicked? <==> IsEnd(tz)
    ensures IsSuffix(r.state.chars, tz.chars)
    ensures r.status.Succeeded? ==>
              && |r.state.chars| < |tz.chars|
              && tz.tokens <= r.state.tokens
              && |r.state.tokens| <= |tz.tokens| + 1
    ensures r.status.Failed? ==>
              && r.status.error == TokenizerError(UnexpectedToken)
              && r.state.tokens == tz.tokens
              && |r.state.chars| > 0
              && !IsOperatorSymbol(r.state.chars[0])
              && !IsBlank(r.state.chars[0])
    ensures r.status.Failed? ==>
              && r.state.chars == tz.chars[LexemeLength(tz.chars)..]
              && ParseNumber(r.state.chars).Reject?
              && ParseOperator(r.state.chars).Reject?
  {
    match ParseNumber(tz.chars)
    case Accept(t, rest) => Run(Succeeded, Tokenizer(rest, Push(tz.tokens, t)))
    case Panic(m) => Run(Panicked(m), tz)
    case Reject(_, rest) =>
      match ParseOperator(rest)
      case Accept(t, rest') => Run(Succeeded, Tokenizer(rest', Push(tz.tokens, t)))
      case Reject(_, rest') => Run(Failed(TokenizerError(UnexpectedToken)), Tokenizer(rest', tz.tokens))
      case Panic(m) => Run(Panicked(m), Tokenizer(rest, tz.tokens))
  }

  /**
    What one step does: it succeeds exactly on a complete number (one not
    followed by a second '.'), an operator symbol or a blank, and pushes the
    number's value, the operator, or nothing.
   */
  lemma ScanTokenEffect(tz: Tokenizer)
    ensures var r := ScanToken(tz);
            r.status.Succeeded? <==>
              && |tz.chars| > 0
              && (|| (IsDigit(tz.chars[0])
                      && (LexemeLength(tz.chars) == |tz.chars| || tz.chars[LexemeLength(tz.chars)] != '.'))
                  || IsOperatorSymbol(tz.chars[0])
                  || IsBlank(tz.chars[0]))
    ensures var r := ScanToken(tz);
            r.status.Succeeded? && IsDigit(tz.chars[0]) ==>
              var n := LexemeLength(tz.chars);
              r.state == Tokenizer(tz.chars[n..], tz.tokens + [Number(LexemeValue(tz.chars[..n]))])
    ensures var r := ScanToken(tz);
            r.status.Succeeded? && !IsDigit(tz.chars[0]) ==>
              && r.state.chars == tz.chars[1..]
              && r.state.tokens == if IsBlank(tz.chars[0]) then tz.tokens
                                   else tz.tokens + [Operator(OperatorOf(tz.chars[0]))]
  {
    ScanSucceedsWhen(tz);
    ScanDigitEffect(tz);
    ScanOtherEffect(tz);
  }

  /** The first clause of `ScanTokenEffect`, split out to keep each proof within the resource limit. */
  lemma ScanSucceedsWhen(tz: Tokenizer)
    ensures var r := ScanToken(tz);
            r.status.Succeeded? <==>
              && |tz.chars| > 0
              && (|| (IsDigit(tz.chars[0])
                      && (LexemeLength(tz.chars) == |tz.chars| || tz.chars[LexemeLength(tz.chars)] != '.'))
                  || IsOperatorSymbol(tz.chars[0])
                  || IsBlank(tz.chars[0]))
  {
  }

  /** The second clause of `ScanTokenEffect`, split out likewise. */
  lemma ScanDigitEffect(tz: Tokenizer)
    ensures var r := ScanToken(tz);
            r.status.Succeeded? && IsDigit(tz.chars[0]) ==>
              var n := LexemeLength(tz.chars);
              r.state == Tokenizer(tz.chars[n..], tz.tokens + [Number(LexemeValue(tz.chars[..n]))])
  {
  }

  /** The third clause of `ScanTokenEffect`, split out likewise. */
  lemma ScanOtherEffect(tz: Tokenizer)
    ensures var r := ScanToken(tz);
            r.status.Succeeded? && !IsDigit(tz.chars[0]) ==>
              && r.state.chars == tz.chars[1..]
              && r.state.tokens == if IsBlank(tz.chars[0]) then tz.tokens
                                   else tz.tokens + [Operator(OperatorOf(tz.chars[0]))]
  {
  }

  /**
    `tokenize`: scan until the cursor is empty, stopping at the first error.
    It never panics, since it only scans a non-empty cursor; tokens pushed
    before an error stay pushed.
   */
  function Tokenize(tz: Tokenizer): (r: Run)
    ensures !r.status.Panicked?
    ensures r.status.Succeeded? ==> IsEnd(r.state)
    ensures r.status.Failed? ==>
              && r.status.error == TokenizerError(UnexpectedToken)
              && |r.state.chars| > 0
              && !IsOperatorSymbol(r.state.chars[0])
              && !IsBlank(r.state.chars[0])
              && ParseNumber(r.state.chars).Reject?
              && ParseOperator(r.state.chars).Reject?
    ensures IsSuffix(r.state.chars, tz.chars)
    ensures tz.tokens <= r.state.tokens
    decreases |tz.chars|
  {
    if IsEnd(tz) then Run(Succeeded, tz)
    else
      var step := ScanToken(tz);
      if !step.status.Succeeded? then step else Tokenize(step.state)
  }
}

=== FILE: syntax.dfy ===
/**
  The token type the AST layer works over, and the token-cursor helpers of
  src/ast/helpers.rs. The AST files name an integer-or-operator token
  (`Token::Integer`, `Token::Operator(String)`) that is a different type from
  the lexer's; it is modelled here on its own.
 */
module Syntax {
  import opened Wrappers
  import Lexer

  /** An integer literal (an `i32` in the source, unbounded here) or an operator written as a string. */
  datatype Token = Integer(value: int) | Operator(symbol: string)

  /** `mem::Discriminant<Token>`: which variant a token is, ignoring its payload. */
  datatype Kind = IntegerKind | OperatorKind

  function KindOf(t: Token): Kind
  {
    match t
    case Integer(_) => IntegerKind
    case Operator(_) => OperatorKind
  }

  /** What a matcher did: the token it consumed, if any, and the remaining tokens. */
  datatype Match = Match(token: Option<Token>, rest: seq<Token>)

  /** The `for` loop of `match_token`: does some listed variant equal the token's? */
  function AnyKind(kinds: seq<Kind>, t: Token): (b: bool)
    ensures b <==> KindOf(t) in kinds
  {
    if |kinds| == 0 then false else kinds[0] == KindOf(t) || AnyKind(kinds[1..], t)
  }

  /** The `for` loop of `match_concrete_token`: is some listed token equal to the token? */
  function AnyEqual(candidates: seq<Token>, t: Token): (b: bool)
    ensures b <==> t in candidates
  {
    if |candidates| == 0 then false else candidates[0] == t || AnyEqual(candidates[1..], t)
  }

  /** `match_token`: consume the next token when its variant is one of `kinds`. */
  function MatchToken(kinds: seq<Kind>, ts: seq<Token>): (r: Match)
    ensures r.token.Some? <==> |ts| > 0 && KindOf(ts[0]) in kinds
    ensures r.token.Some? ==> r.token == Peek(ts) && r.rest == ts[1..]
    ensures r.token.None? ==> r.rest == ts
  {
    match Peek(ts)
    case None => Match(None, ts)
    case Some(current) => if AnyKind(kinds, current) then Match(Some(current), ts[1..]) else Match(None, ts)
  }

  /** `match_concrete_token`: consume the next token when it equals one of `candidates`, payload included. */
  function MatchConcreteToken(candidates: seq<Token>, ts: seq<Token>): (r: Match)
    ensures r.token.Some? <==> |ts| > 0 && ts[0] in candidates
    ensures r.token.Some? ==> r.token == Peek(ts) && r.rest == ts[1..]
    ensures r.token.None? ==> r.rest == ts
  {
    match Peek(ts)
    case None => Match(None, ts)
    case Some(current) => if AnyEqual(candidates, current) then Match(Some(current), ts[1..]) else Match(None, ts)
  }

  /** Matching on variants is coarser than matching on tokens: a concrete match is also a variant match. */
  lemma ConcreteMatchImpliesKindMatch(candidates: seq<Token>, ts: seq<Token>)
    requires MatchConcreteToken(candidates, ts).token.Some?
    ensures MatchToken(seq(|candidates|, i requires 0 <= i < |candidates| => KindOf(candidates[i])), ts)
         == MatchConcreteToken(candidates, ts)
  {
    var kinds := seq(|candidates|, i requires 0 <= i < |candidates| => KindOf(candidates[i]));
    var i :| 0 <= i < |candidates| && candidates[i] == ts[0];
    assert kinds[i] == KindOf(ts[0]);
  }

  // ---------------------------------------------------------------------------
  // Rendering

  function DigitChar(d: nat): char
    requires d < 10
  {
    "0123456789"[d]
  }

  /** The decimal digits of a natural number, most significant first, with no leading zero. */
  function NatText(n: nat): (s: string)
    ensures |s| > 0
    decreases n
  {
    if n < 10 then [DigitChar(n)] else NatText(n / 10) + [DigitChar(n % 10)]
  }

  /** Every character `NatText` writes is a decimal digit. */
  lemma {:induction false} NatTextDigits(n: nat)
    ensures forall i :: 0 <= i < |NatText(n)| ==> Lexer.IsDigit(NatText(n)[i])
    decreases n
  {
    if n >= 10 {
      NatTextDigits(n / 10);
    }
  }

  /** `Display` of an integer: an optional '-' and the decimal digits of its magnitude. */
  function IntText(n: int): string
  {
    if n < 0 then "-" + NatText(-n) else NatText(n)
  }

  /**
    `Display` of a token: the integer in decimal, the operator as its string.
    An integer's text starts with '-' exactly when it is negative, and the
    digits after the sign read back to its magnitude.
   */
  function TokenText(t: Token): (s: string)
    ensures t.Integer? ==> |s| > 0
    ensures t.Integer? && t.value < 0 ==> s[0] == '-' && Lexer.DigitsValue(s[1..]) == -t.value
    ensures t.Integer? && t.value >= 0 ==> s[0] != '-' && Lexer.DigitsValue(s) == t.value
    ensures t.Operator? ==> s == t.symbol
  {
    match t
    case Integer(n) =>
      if n < 0 then NegativeReadsBack(n); IntText(n)
      else NonNegativeReadsBack(n); IntText(n)
    case Operator(s) => s
  }

  lemma NegativeReadsBack(n: int)
    requires n < 0
    ensures IntText(n)[0] == '-' && Lexer.DigitsValue(IntText(n)[1..]) == -n
  {
    var m: nat := -n;
    NegativeIntText(n);
    NatTextRoundTrip(m);
    assert IntText(n)[1..] == NatText(m);
  }

  lemma NonNegativeReadsBack(n: nat)
    ensures IntText(n)[0] != '-' && Lexer.DigitsValue(IntText(n)) == n
  {
    NatTextDigits(n);
    assert Lexer.IsDigit(NatText(n)[0]);
    NatTextRoundTrip(n);
  }

  /** Reading back the digits `NatText` writes gives the number again. */
  lemma {:induction false} NatTextRoundTrip(n: nat)
    ensures Lexer.DigitsValue(NatText(n)) == n
    decreases n
  {
    var s := NatText(n);
    if n < 10 {
      assert s[..0] == [];
    } else {
      NatTextRoundTrip(n / 10);
      assert s[..|s| - 1] == NatText(n / 10);
    }
  }

  /** Distinct integers render differently. */
  lemma IntTextInjective(a: int, b: int)
    ensures IntText(a) == IntText(b) ==> a == b
  {
    if a < 0 && b < 0 {
      NegativeIntTextInjective(a, b);
    } else if a >= 0 && b >= 0 {
      NatTextInjective(a, b);
    } else if a < 0 {
      SignDistinguishes(a, b);
    } else {
      SignDistinguishes(b, a);
    }
  }

  lemma NatTextInjective(a: nat, b: nat)
    ensures NatText(a) == NatText(b) ==> a == b
  {
    NatTextRoundTrip(a);
    NatTextRoundTrip(b);
  }

  lemma NegativeIntTextInjective(a: int, b: int)
    requires a < 0 && b < 0
    ensures IntText(a) == IntText(b) ==> a == b
  {
    if IntText(a) == IntText(b) {
      NegativeIntText(a);
      NegativeIntText(b);
      NatTextInjective(-a, -b);
    }
  }

  /** Only negative integers render with a leading '-'. */
  lemma SignDistinguishes(a: int, b: int)
    requires a < 0 <= b
    ensures IntText(a) != IntText(b)
  {
    assert IntText(a)[0] == '-';
    NatTextDigits(b);
    assert Lexer.IsDigit(IntText(b)[0]);
  }

  /** A negative integer renders as '-' and then the digits of its magnitude. */
  lemma NegativeIntText(n: int)
    requires n < 0
    ensures IntText(n)[0] == '-' && IntText(n)[1..] == NatText(-n)
  {
  }
}

=== FILE: tokens.dfy ===
/**
  The lexer's token model (src/tokenizer/tokens.rs, and its copy at the top of
  src/tokenizer.rs): four arithmetic operators and a token that is either a
  number or an operator.

  The source stores a number as an `f64`; here the payload is the exact
  decimal value of the accepted lexeme, as a `real`.
 */
module Tokens {

  datatype Operator = Minus | Plus | Star | Slash

  /** Dafny's datatype equality is structural, as `#[derive(PartialEq)]` is. */
  datatype Token = Number(value: real) | Operator(op: Operator)

  /** The one character an operator is written with. */
  function Symbol(op: Operator): (c: char)
    ensures IsOperatorSymbol(c)
  {
    match op
    case Plus => '+'
    case Minus => '-'
    case Star => '*'
    case Slash => '/'
  }

  /** True of exactly the four characters that are operator symbols. */
  predicate IsOperatorSymbol(c: char)
  {
    c == '+' || c == '-' || c == '*' || c == '/'
  }

  /** The operator a symbol character stands for. */
  function OperatorOf(c: char): (op: Operator)
    requires IsOperatorSymbol(c)
    ensures Symbol(op) == c
  {
    if c == '+' then Plus else if c == '-' then Minus else if c == '*' then Star else Slash
  }

  /** `Display` of an operator: exactly one character, an operator symbol. */
  function OperatorText(op: Operator): (s: string)
    ensures |s| == 1 && IsOperatorSymbol(s[0])
  {
    [Symbol(op)]
  }

  /**
    `Display` of a token. Rendering an `f64` is the host's float formatting,
    so the number case is a parameter.
   */
  function TokenText(t: Token, numberText: real -> string): (s: string)
    ensures t.Operator? ==> |s| == 1 && IsOperatorSymbol(s[0]) && OperatorOf(s[0]) == t.op
  {
    match t
    case Number(v) => numberText(v)
    case Operator(op) => OperatorText(op)
  }

  /** Distinct operators render differently. */
  lemma OperatorTextInjective(a: Operator, b: Operator)
    ensures OperatorText(a) == OperatorText(b) ==> a == b
  {
  }

  /** Every operator symbol is the rendering of some operator. */
  lemma OperatorSymbolsCovered(c: char)
    requires IsOperatorSymbol(c)
    ensures exists op :: Symbol(op) == c
  {
    if c == '+' {
      assert Symbol(Plus) == c;
    } else if c == '-' {
      assert Symbol(Minus) == c;
    } else if c == '*' {
      assert Symbol(Star) == c;
    } else {
      assert Symbol(Slash) == c;
    }
  }

  /** An operator token renders exactly as its operator, whatever the number formatting. */
  lemma OperatorTokenText(op: Operator, numberText: real -> string)
    ensures TokenText(Operator(op), numberText) == OperatorText(op)
  {
  }
}

=== FILE: wrappers.dfy ===
/** Option and Result values, and cursor suffixes, shared by the lexer, the parser and the evaluator. */
module Wrappers {

  /** Rust's `Option`: what `peek` returns, `chars.clone().next()` being `None` on an empty cursor. */
  datatype Option<+T> = None | Some(value: T)

  /** A success value or an error value, standing for Rust's `Result`. */
  datatype Result<+T, +E> = Ok(value: T) | Err(error: E)

  /** `peek` on a cursor: the next element, if any; the cursor is a value, so nothing is consumed. */
  function Peek<T>(s: seq<T>): (r: Option<T>)
    ensures r.Some? <==> |s| > 0
    ensures r.Some? ==> r.value == s[0]
  {
    if |s| == 0 then None else Some(s[0])
  }

  /** True when `suffix` is what remains of `s` after dropping a prefix: a cursor that only moved forward. */
  predicate IsSuffix<T(==)>(suffix: seq<T>, s: seq<T>)
  {
    |suffix| <= |s| && suffix == s[|s| - |suffix|..]
  }
}
